=== FILE: README.md ===
# Quant-Options-Modeling: the incremental indicator engine in Dafny

This project models the technical-indicator engine of Quant-Options-Modeling.
Each indicator keeps a window of closing prices (a `deque<double>` in the
C++ code). It consumes one new price per step, updates its state and
appends its newest value to its history. The model covers:

- the simple moving average: the mean of the window;
- the exponential moving average: a recursive smoother with weight
  `2 / (period + 1)`;
- Kaufman's adaptive moving average: its weight is the squared efficiency
  ratio mapped between two constants;
- Bollinger bands: the mean of typical prices, plus and minus two
  population standard deviations;
- the relative strength index: its overbought/oversold flags and its
  support/resistance levels;
- MACD: the gap between a 12-period and a 26-period EMA, its signal line
  (a simple 9-value mean), the histogram and the buy/sell flags;
- the CSV reader that splits each line at commas;
- the differencing step used before the ARIMA fit;
- the window/target pairs built for the LSTM forecaster.

The layout follows the sources. `Sma`, `Ema`, `Kama`, `Bollinger`, `Rsi`
and `Macd` follow `indicators.cpp`. `Csv` follows `csvReader.h`. `Arima`
follows `ARIMA.py` and `StocksLstm` follows `StocksLSTM.py`. `Series` holds
the shared sums, means and the sliding window, and `Options` holds an
option type.

Each indicator is a class. Its deques are `seq` fields, and its methods
change those fields under a `modifies` clause. Each method is proved
against pure specification functions (`Mean`, `EmaStep`,
`EfficiencyRatio`, `KamaSmoothing`, `PopulationVariance`, `Bands`,
`RsiValue`, `Split`). Lemmas then prove the properties of those functions:
bounds, iff-characterisations, round trips and inverse pairs. The
constructors start from the prices their file would have delivered.
Each pass of a read-until-end loop is modelled as the `Step` method of
its class; the whole loop is `Feed` for the simple moving average and
`UpdateLoop` for MACD.

Where the behaviour of the code differs from the usual description of
these indicators, the model follows the code:

- KAMA, `indicators.cpp:220-231`:
  - The change is signed (`last - first`), not an absolute value.
  - The volatility loop stops at index 2, so the step `p[1] - p[0]` is
    never counted.
  - The ratio is therefore not confined to [-1, 1]. `Kama.RatioCanExceedOne`
    shows a window where it is 2.
  - The volatility is zero exactly when the prices from index 1 on are
    all equal (`Kama.VolatilityZeroIff`), and then the ratio divides by
    zero. No substitute ratio of 0 exists in the code, so a non-zero
    volatility is a precondition.
- RSI, `indicators.cpp:401-441`:
  - The window holds 14 prices, so it has 13 changes.
  - The changes are percentage changes.
  - A window without gains or without losses leaves an average
    uninitialised, so both are preconditions.
  - The code has no neutral value of 50 for a flat window.
- MACD, `indicators.cpp:493-549`:
  - The two EMAs are not fed one common price stream. Each reader cursor
    stays on the last row its EMA read, and the nine warm-up steps feed
    that same row again and again.
  - The update loop advances only the long cursor, so the short EMA
    receives its stale row at every step. `Macd.MovingAverageConvergenceDivergence.Step`
    therefore takes two prices, and the constructor passes the stale one.
  - The signal is a simple mean of the nine MACD values, with the sum
    accumulated by `std::reduce` into an `int`.
- Invalid input is handled in four ways, and none of them returns an error
  value:
  - Bollinger computes NaN before any average exists. The model writes
    this as `None`.
  - The MACD `get_signal` writes a message to `cerr` and returns without
    change when the MACD window does not hold nine values
    (indicators.cpp:559-561). The model keeps the early return but not the
    message.
  - KAMA with period 1 throws `std::out_of_range` from `prices.at(i-1)` at
    indicators.cpp:227. The model excludes it by a precondition; see
    "## Left out".
  - The remaining cases either read an uninitialised average (RSI on a
    window without gains or without losses), which is undefined behaviour,
    or divide by a zero volatility (KAMA), which gives an infinity or NaN.
    The model excludes both by preconditions.

Two library results cannot be computed exactly in the model, so they are
parameters:

- `std::reduce(begin, end, 0)` in the EMA seed (`indicators.cpp:108`) and
  the MACD signal (`indicators.cpp:564`) accumulates into an `int`. Its
  result is an `int` parameter: `seedSum`, `longSeedSum`, `shortSeedSum`,
  `macdSum` and `signalSums`.
- `std::sqrt` is a parameter `sqrt` constrained by `IsSquareRoot`: its
  result is non-negative and squares back to the argument.

## Model

| member | source | states |
|---|---|---|
| Series.Total | indicators.cpp:58-64 | the front-to-back summing loop returns the sum of the window |
| Series.Slide | indicators.cpp:69-72 | update_prices keeps the window length, shifts every price one place forward and puts the new price last |
| Series.SumSlide | indicators.cpp:69-72 | sliding changes the window sum by the entering price minus the leaving one |
| Series.SlideCopies | indicators.cpp:526-528 | sliding a price into a window that already ends in k copies of it drops one more old price and leaves k + 1 copies |
| Series.MeanSlide | indicators.cpp:58-72 | after a slide the mean equals the old mean plus (new - oldest) / period |
| Sma.SimpleMovingAverage.constructor | indicators.cpp:24-45 | after the first `per` prices the history holds exactly their mean |
| Sma.SimpleMovingAverage.GetAverage | indicators.cpp:58-67 | avg is the mean of the window and is appended to the history; the window is unchanged |
| Sma.SimpleMovingAverage.UpdatePrices | indicators.cpp:69-72 | the window slides by the new price; the averages are unchanged |
| Sma.SimpleMovingAverage.Feed | indicators.cpp:47-52 | after feeding `xs` the window is the last `period` prices of the stream, the j-th new average is the mean of the j-th window of the stream, earlier averages are kept, and avg is the newest average (unchanged when `xs` is empty) |
| Sma.SimpleMovingAverage.Step | indicators.cpp:48-52 | one loop pass: the window slides by the new price, avg becomes the mean of the new window and is appended |
| Ema.SmoothingConst | indicators.cpp:88 | the weight 2/(period+1) lies in (0, 1] for a positive period and is 1 exactly for period 1 |
| Ema.EmaStep | indicators.cpp:118-125 | the new average's distance to the price is (1 - k) times the old distance, and for k in [0, 1] the new average lies between the old average and the price |
| Ema.EmaRepeat | indicators.cpp:522-533 | feeding one price repeatedly keeps the average between its start and that price, and a price equal to the start is a fixed point |
| Ema.RepeatTrace | indicators.cpp:522-533 | repeating one price n times records n averages |
| Ema.RepeatTraceEntries | indicators.cpp:522-533 | the i-th recorded average is the start moved i + 1 steps toward the price, and for a weight in [0, 1] each lies between the start and the price |
| Ema.EmaFoldWithin | indicators.cpp:118-125 | for a weight in [0, 1], an average that starts inside a price range and is fed prices from that range stays inside it |
| Ema.ExponentialMovingAverage.constructor | indicators.cpp:86-111 | the window is the first `per` prices and the history holds the seed, the integer sum divided by `per` |
| Ema.ExponentialMovingAverage.UpdatePrices | indicators.cpp:113-116 | the window slides by the new price; average and history are unchanged |
| Ema.ExponentialMovingAverage.GetAverage | indicators.cpp:118-125 | avg becomes EmaStep of the old average toward the newest price, lies between them, is appended and returned |
| Kama.AbsSteps | indicators.cpp:226-228 | the summed absolute steps from a position to the end are non-negative |
| Kama.Volatility | indicators.cpp:224-228 | the path length the loop measures (first step skipped) is non-negative |
| Kama.NetMoveAtMostPath | indicators.cpp:220-231 | the net move from a position to the last price is at most the path length from there |
| Kama.RatioBoundedWhenFirstStepFlat | indicators.cpp:220-231 | when the skipped first step is flat, the efficiency ratio lies in [-1, 1] |
| Kama.RatioCanExceedOne | indicators.cpp:224-230 | on prices 0, 1, 2 the measured volatility is 1 and the ratio is 2 |
| Kama.FlatWindowHasNoPath | indicators.cpp:226-230 | a window of equal prices has zero path length, so the ratio's division is by zero (a corollary of NoPathIffFlatFrom) |
| Kama.NoPathIffFlatFrom | indicators.cpp:226-228 | the path length from a position on is zero if and only if no later price differs from the one before it |
| Kama.VolatilityZeroIff | indicators.cpp:224-230 | the measured volatility is zero if and only if the prices from index 1 on are all equal, in particular for every window of at most two prices |
| Kama.KamaSmoothing | indicators.cpp:233-235 | the constant is non-negative, the slow constant squared for ratio 0, between slow² and fast² for a ratio in [0, 1], and below 1 for a ratio in [-1, 1] |
| Kama.KamaStep | indicators.cpp:237-241 | the adaptive step equals the EMA step with the adaptive constant as weight |
| Kama.KaufmanAdaptiveMovingAverage.constructor | indicators.cpp:177-206 | ratio and constant are those of the first window, avg is its mean and no average is recorded yet |
| Kama.KaufmanAdaptiveMovingAverage.GetEfficiencyRatio | indicators.cpp:220-231 | the backward loop sets the ratio to the signed net move over the measured volatility |
| Kama.KaufmanAdaptiveMovingAverage.GetSmoothingConst | indicators.cpp:233-235 | the constant is set to KamaSmoothing of the current ratio |
| Kama.KaufmanAdaptiveMovingAverage.GetAverage | indicators.cpp:237-241 | avg moves toward the newest price, its distance shrinks by the factor 1 - sc, it lies between the old average and the price for sc in [0, 1], and it is appended |
| Kama.KaufmanAdaptiveMovingAverage.UpdatePrices | indicators.cpp:243-246 | the window slides by the new price; everything else is unchanged |
| Kama.KaufmanAdaptiveMovingAverage.Step | indicators.cpp:209-215 | one loop pass: the window slides, ratio and constant are recomputed for it, and the average steps toward the new price |
| Bollinger.SquaredDeviations | indicators.cpp:342-346 | the accumulated squared distances from the mean are non-negative |
| Bollinger.PopulationVariance | indicators.cpp:335-348 | the population variance of a window is non-negative |
| Bollinger.VarianceZeroIffFlat | indicators.cpp:335-349 | the variance is zero if and only if all prices of the window are equal |
| Bollinger.Bands | indicators.cpp:297-303 | the bands are symmetric around the mean, four deviations apart, and ordered around the mean for a non-negative deviation |
| Bollinger.FlatWindowBandsCollapse | indicators.cpp:297-303 | on a flat window the deviation is 0 and both bands equal the mean |
| Bollinger.TypicalPrice | indicators.cpp:277 | the typical price is neither above all three fields nor below all three |
| Bollinger.BollingerBands.constructor | indicators.cpp:261-282 | the window is the first typical prices, the history holds their mean, and no band exists yet |
| Bollinger.BollingerBands.GetAverage | indicators.cpp:309-318 | avg is the window mean and is appended; the bands are unchanged |
| Bollinger.BollingerBands.UpdatePrices | indicators.cpp:320-323 | the window slides by the new price; everything else is unchanged |
| Bollinger.BollingerBands.StandardDeviation | indicators.cpp:327-353 | NaN (None) and nothing recorded before any average exists; otherwise the square root of the population variance, non-negative, recorded once |
| Bollinger.BollingerBands.GetBands | indicators.cpp:297-307 | NaN bands before any average exists; otherwise avg ± 2·sd appended, the lower band not above avg and the upper band not below it, and the deviation recorded twice |
| Bollinger.BollingerBands.Step | indicators.cpp:285-290 | one loop pass: the window slides, its mean is appended, and both bands follow with the deviation of the new window |
| Rsi.Wins | indicators.cpp:413-415 | there are at most as many gains as changes, and every gain is positive |
| Rsi.Losses | indicators.cpp:410-412 | there are at most as many losses as changes, and every loss magnitude is positive |
| Rsi.WinsArePositiveChanges | indicators.cpp:413-415 | a value is a gain if and only if it is one of the changes and positive |
| Rsi.LossesAreNegativeMagnitudes | indicators.cpp:410-412 | a value is a loss if and only if it is positive and its negation is one of the changes, so the losses are the magnitudes of the negative changes |
| Rsi.WinsMinusLossesIsNet | indicators.cpp:405-416 | total gains minus total losses equals the sum of all changes |
| Rsi.ClassifyStep | indicators.cpp:410-415 | classifying one more change appends it to the gains if positive, its magnitude to the losses if negative, and to neither if zero |
| Rsi.NonZeroChangesAllClassified | indicators.cpp:405-416 | when no change is zero, the gains and the losses together number all the changes |
| Rsi.RisingWindowHasNoLosses | indicators.cpp:405-416 | a non-decreasing window of positive prices has no loss, so the loss average stays uninitialised |
| Rsi.AverageWin | indicators.cpp:421-423 | the average gain of a window with gains is positive |
| Rsi.AverageLoss | indicators.cpp:425-427 | the average loss of a window with losses is positive |
| Rsi.RsiValue | indicators.cpp:429-438 | 100 for a zero loss average; otherwise 100·win/(win+loss), strictly between 0 and 100 when both averages are positive |
| Rsi.RelativeStrengthIndex.constructor | indicators.cpp:368-388 | the window is the first 14 prices and the history holds exactly RsiValue of their average gain and loss, a value in (0, 100) |
| Rsi.RelativeStrengthIndex.UpdatePrices | indicators.cpp:443-446 | the window slides by the new price; history, flags and levels are unchanged |
| Rsi.RelativeStrengthIndex.GetRelativeStrength | indicators.cpp:401-441 | the classifying loop appends RsiValue of the window's average gain and loss, a value in (0, 100) |
| Rsi.RelativeStrengthIndex.SetFlags | indicators.cpp:448-459 | an index of at least 70 sets overbought only, at most 30 sets oversold only, and in between both flags keep their values |
| Rsi.RelativeStrengthIndex.SupportOrResistance | indicators.cpp:461-469 | an index in (50, 60) makes the newest price the resistance, one in (40, 50) makes it the support; otherwise neither changes |
| Rsi.RelativeStrengthIndex.Step | indicators.cpp:390-397 | one loop pass: the window slides and RsiValue of the new window, a value in (0, 100), is appended; flags and support/resistance levels are unchanged |
| Macd.SignalLine | indicators.cpp:558-566 | one signal per full MACD window |
| Macd.SignalLineEntries | indicators.cpp:558-566 | the i-th signal is the i-th integer window sum divided by nine |
| Macd.SignalLineCons | indicators.cpp:534-548 | the signals are the first one, computed after the warm-up, followed by those of the update loop |
| Macd.MacdLine | indicators.cpp:530-531 | one MACD value per pair of averages |
| Macd.MacdLineEntries | indicators.cpp:530-531 | the i-th MACD value is the short average minus the long average of step i |
| Macd.MacdLineSnoc | indicators.cpp:530-531 | one more pair of averages appends their difference to the MACD values |
| Macd.SignalLineConcat | indicators.cpp:535-548 | the signals of two consecutive runs of steps are the signals of the first run followed by those of the second |
| Macd.MovingAverageConvergenceDivergence.constructor | indicators.cpp:493-549 | both EMAs are fresh and distinct, the MACD window holds nine values, the newest being short minus long, the signals are SignalLine of the window sums (one per full window), both EMA histories hold one average per row after the seed window of the short one, the long EMA's window ends at the last price, and the short EMA keeps its stale row |
| Macd.MovingAverageConvergenceDivergence.Start | indicators.cpp:534-548 | after the warm-up, the first signal and the update loop: the MACD window stays full and ends in short minus long, the signals equal SignalLine of all the sums, each EMA gains one average per row after row 26, the long window ends at the last price and the short one keeps row 12 |
| Macd.MovingAverageConvergenceDivergence.WarmUp | indicators.cpp:521-533 | nine steps on the two cursor rows: each window loses its nine oldest prices to nine copies of its row's price; each EMA history gains exactly RepeatTrace, its start moved 1, 2, …, 9 EMA steps toward its row's price; the MACD values are exactly MacdLine of those two traces, the newest equal to emaDiff; signal, histogram, flags and hist are untouched |
| Macd.MovingAverageConvergenceDivergence.WarmUpStep | indicators.cpp:522-532 | one warm-up pass: both windows slide by their rows' prices, both EMAs step toward them, emaDiff is their difference and is appended; the state after k warm-up steps becomes the state after k + 1 (windows, histories, averages and MACD values as in WarmUp); signal, histogram, flags and hist are untouched |
| Macd.MovingAverageConvergenceDivergence.StepAverages | indicators.cpp:526-529 | each EMA slides its window by its own price and takes one EMA step toward it, appending the result to its history |
| Macd.MovingAverageConvergenceDivergence.UpdateLoop | indicators.cpp:536-548 | feeding the remaining rows to the long EMA and the stale row to the short one appends SignalLine of the window sums and one average per row to each EMA; the long average ends as EmaFold of the rows and the short one as EmaRepeat of the stale row; the MACD window stays full and ends in short minus long; after at least one row emaDiff and hist are the newest gap and histogram entry and the flags agree with the newest MACD value and signal; with no rows flags, emaDiff and hist are unchanged; both flags are never set together |
| Macd.MovingAverageConvergenceDivergence.GetMacd | indicators.cpp:552-556 | the MACD window slides by the short average minus the long average |
| Macd.MovingAverageConvergenceDivergence.GetSignal | indicators.cpp:558-569 | with exactly nine MACD values, the signal (sum / 9) is appended and the histogram gets MACD minus signal; with any other count nothing changes |
| Macd.MovingAverageConvergenceDivergence.SetFlag | indicators.cpp:572-585 | MACD above signal sets buy only, below sets sell only, and a tie keeps both flags |
| Macd.MovingAverageConvergenceDivergence.Step | indicators.cpp:537-548 | one loop pass: both EMAs step on their own row's price, the MACD window slides by their difference, the signal sum / 9 and the histogram entry MACD minus signal are appended, emaDiff and hist hold the new gap and histogram entry, and the flags follow the comparison (kept on a tie, never both set) |
| Csv.FindFrom | csvReader.h:39 | a position found lies at or after `from`, inside the line, and holds the delimiter |
| Csv.FindFromIsFirst | csvReader.h:39 | the position found is the first such one, and when none is found no position from `from` on holds the delimiter |
| Csv.FindFromSuffix | csvReader.h:39-42 | searching from `from` finds what searching the suffix starting there finds, shifted by `from`, and fails exactly when that search fails |
| Csv.SplitAtFound | csvReader.h:39-42 | when the search from `pos` finds a delimiter at `n`, the split of the rest of the line is the field up to `n` followed by the split after it |
| Csv.SplitNoneFound | csvReader.h:43 | when no delimiter follows `pos`, the rest of the line is one last field |
| Csv.Split | csvReader.h:37-43 | a line always splits into at least one field |
| Csv.SplitLength | csvReader.h:37-43 | a line with n delimiters has n + 1 fields |
| Csv.SplitFieldsFree | csvReader.h:37-43 | no field contains the delimiter |
| Csv.JoinSplit | csvReader.h:37-43 | joining the fields with the delimiter gives back the line |
| Csv.SplitJoin | csvReader.h:37-43 | fields free of the delimiter come back unchanged from a join and a split |
| Csv.SplitExample | csvReader.h:37-43 | "a,,b," splits into "a", "", "b", "" |
| Csv.CsvReader.constructor | csvReader.h:27-30 | the reader starts at the first line with ',' as delimiter |
| Csv.CsvReader.ReadNext | csvReader.h:32-48 | it succeeds exactly when a line remains; it then advances one line and returns that line's split; at the end it returns an empty row and stays put |
| Arima.DropMissing | ARIMA.py:42 | dropping missing entries never lengthens the series, a value is in the result if and only if it is present in the series, and an all-present series is kept whole |
| Arima.FirstDifference | ARIMA.py:41-42 | one differencing step yields exactly the consecutive differences |
| Arima.DifferenceSeries | ARIMA.py:37-45 | differencing `order` times (once by default) shortens the series by `order` (to empty at most), and the default single step yields exactly the consecutive differences |
| Arima.DifferenceOrderZero | ARIMA.py:38-39 | order 0 returns the series unchanged |
| Arima.DifferenceLastStep | ARIMA.py:37-43 | differencing n + 1 times is one more step applied to the n-times differenced series |
| Arima.ConstantDifferencesVanish | ARIMA.py:41-42 | a constant series differences to zeros |
| Arima.LinearTrendRemoved | ARIMA.py:37-43 | a linear series differences to its slope once and to zeros twice |
| StocksLstm.CreateSequences | StocksLSTM.py:21-29 | there are max(0, n - L) pairs; pair i is the window data[i..i+L] and the value data[i+L] |
| StocksLstm.WindowsOverlap | StocksLSTM.py:21-29 | each next window is the previous one shifted by one with the previous target appended |
| StocksLstm.TargetsAreTheTail | StocksLSTM.py:27-28 | the targets are exactly the data after the first window |

## Left out

- Reading files: the constructors take the prices their `CSVReader` would
  deliver, and `isOpen`/`close` (csvReader.h:50-58) are not modelled. The
  reader's file is modelled as its sequence of lines, without line-ending
  handling.
- Floating point: all arithmetic is on exact reals, so rounding, NaN
  propagation and infinities are not modelled.
- `std::sqrt` is a parameter with the square-root property, not a
  definition.
- `std::reduce(…, 0)`: its integer-accumulated result is a parameter. The
  model does not relate that result to the double sum it truncates.
- ExponentialMovingAverage.runEMA (indicators.cpp:127-150), the Fibonacci
  classes, the `main` programs, getData.cpp, test.cpp and csvReader.cpp are
  not part of this model. Neither are the other Python scripts and the
  model-fitting, plotting, scaling and network-training parts of
  ARIMA.py and StocksLSTM.py.
- Console output (`cout`/`cerr`) is not modelled. GetSignal's error
  message is reduced to leaving the state unchanged.
- Undefined behaviour in the source is turned into preconditions:
  division by zero (KAMA on a window of zero measured volatility, RSI on
  a zero price), RSI
  averages read while uninitialised, and too few rows for the MACD
  warm-up. The flags, levels, `emaDiff` and `hist` fields the source
  leaves uninitialised take arbitrary values.
- Kama.Volatility: states only non-negativity; its meaning is carried by
  AbsSteps, VolatilityZeroIff and the ratio lemmas.
- Kama.KaufmanAdaptiveMovingAverage.constructor, GetEfficiencyRatio and
  Step require a non-zero volatility. By `Kama.VolatilityZeroIff` this
  excludes every window whose prices from index 1 on are equal: flat
  windows, windows such as 1, 2, 2, and every window of period 2, where
  the loop at indicators.cpp:226 never runs. The infinite or NaN ratio
  the source computes there in floating point is not modelled.
- Kama.KaufmanAdaptiveMovingAverage.constructor requires a period of at
  least 2. With period 1 the loop at indicators.cpp:226 starts at index 0
  and `prices.at(-1)` throws `std::out_of_range`; the exception is not
  modelled.
- Arima.DifferenceSeries: pandas keeps the date index of the series; the
  model keeps values only. A negative order is excluded by a precondition:
  ARIMA.py:43 then recurses with ever smaller orders until Python raises
  `RecursionError`, and missing values in the input are not
  modelled.
- StocksLstm.CreateSequences: a negative sequence length is excluded by a
  precondition. Pandas positional/label lookup subtleties are not
  modelled.
- Macd.MovingAverageConvergenceDivergence.constructor: states the
  lengths of the histories, the signals, the newest MACD value and the
  last window prices, not the final averages, the earlier MACD values,
  the flags or the window entries before the last; WarmUp states the
  warm-up's windows, averages and MACD values, and Step each pass of the
  update loop.
- Macd.MovingAverageConvergenceDivergence.UpdateLoop: states how many
  averages each EMA history gains, not their values (only the final
  averages, as EmaFold and EmaRepeat), and of the MACD window only that it
  stays full and ends in the newest gap, not its earlier entries or the
  MACD values behind each histogram entry; of the two EMA windows it states
  only the newest price, not the entries before it. Step states each pass
  in full.
- Macd.MovingAverageConvergenceDivergence.Start: composes the first signal
  with UpdateLoop and states the signals, lengths, newest MACD value and
  last window prices, not the averages' values, the flags or the window
  entries before the last.

=== FILE: arima.dfy ===
/** Differencing of a price series before an ARIMA fit: subtracting the
    series shifted by one, dropping the missing first value, `order` times. */
module Arima {
  import opened Options

  /** The series minus itself shifted down by one place; the first entry has
      no predecessor and is missing. */
  function LaggedDifference(s: seq<real>): seq<Option<real>>
  {
    seq(|s|, i requires 0 <= i < |s| => if i == 0 then None else Some(s[i] - s[i - 1]))
  }

  /** The present values, in order. */
  function DropMissing(s: seq<Option<real>>): (r: seq<real>)
    ensures |r| <= |s|
    ensures forall x :: x in r <==> Some(x) in s
    ensures (forall i :: 0 <= i < |s| ==> s[i].Some?) ==> |r| == |s|
  {
    if |s| == 0 then []
    else if s[0].None? then DropMissing(s[1..])
    else [s[0].value] + DropMissing(s[1..])
  }

  /** The consecutive differences `s[i + 1] - s[i]`. */
  ghost predicate IsFirstDifference(s: seq<real>, d: seq<real>)
  {
    && |d| == (if |s| == 0 then 0 else |s| - 1)
    && forall i :: 0 <= i < |d| ==> d[i] == s[i + 1] - s[i]
  }

  lemma {:induction false} DropMissingAllPresent(s: seq<Option<real>>)
    requires forall i :: 0 <= i < |s| ==> s[i].Some?
    ensures |DropMissing(s)| == |s|
    ensures forall i :: 0 <= i < |s| ==> DropMissing(s)[i] == s[i].value
  {
    if |s| > 0 {
      DropMissingAllPresent(s[1..]);
    }
  }

  /** One differencing step, as the series code does it. */
  function FirstDifference(s: seq<real>): (d: seq<real>)
    ensures IsFirstDifference(s, d)
  {
    var lagged := LaggedDifference(s);
    if |s| == 0 then DropMissing(lagged)
    else
      DropMissingAllPresent(lagged[1..]);
      assert lagged == [None] + lagged[1..];
      DropMissing(lagged)
  }

  /** Differencing applied `order` times; by default once, which yields the
      consecutive differences. */
  function DifferenceSeries(s: seq<real>, order: int := 1): (r: seq<real>)
    requires order >= 0
    ensures |r| == (if |s| <= order then 0 else |s| - order)
    ensures order == 1 ==> IsFirstDifference(s, r)
    decreases order
  {
    if order == 0 then s
    else DifferenceSeries(FirstDifference(s), order - 1)
  }

  /** Order zero returns the series unchanged. */
  lemma DifferenceOrderZero(s: seq<real>)
    ensures DifferenceSeries(s, 0) == s
  {
  }

  /** Differencing once more is one further step on the result: the recursion
      differences first, but the last step may equally be taken last. */
  lemma {:induction false} DifferenceLastStep(s: seq<real>, n: nat)
    ensures DifferenceSeries(s, n + 1) == FirstDifference(DifferenceSeries(s, n))
    decreases n
  {
    if n > 0 {
      DifferenceLastStep(FirstDifference(s), n - 1);
    }
  }

  /** A constant series differences to zeros. */
  lemma ConstantDifferencesVanish(s: seq<real>)
    requires forall i :: 0 <= i < |s| ==> s[i] == s[0]
    ensures forall i :: 0 <= i < |FirstDifference(s)| ==> FirstDifference(s)[i] == 0.0
  {
    var d := FirstDifference(s);
    forall i | 0 <= i < |d|
      ensures d[i] == 0.0
    {
      assert d[i] == s[i + 1] - s[i];
      assert s[i + 1] == s[0] && s[i] == s[0];
    }
  }

  /** Neighbouring points of a line differ by its slope. */
  lemma LineStep(a: real, b: real, i: nat)
    ensures (a + b * (i + 1) as real) - (a + b * i as real) == b
  {
    assert (i + 1) as real == i as real + 1.0;
    assert b * (i as real + 1.0) == b * i as real + b;
  }

  /** The consecutive differences of a line are its slope. */
  lemma LineDifferences(s: seq<real>, d: seq<real>, a: real, b: real)
    requires forall i :: 0 <= i < |s| ==> s[i] == a + b * i as real
    requires IsFirstDifference(s, d)
    ensures forall i :: 0 <= i < |d| ==> d[i] == b
  {
    forall i | 0 <= i < |d|
      ensures d[i] == b
    {
      assert d[i] == s[i + 1] - s[i];
      LineStep(a, b, i);
    }
  }

  /** A series growing by a fixed step differences to that step, so a
      linear trend disappears after differencing twice. */
  lemma LinearTrendRemoved(s: seq<real>, a: real, b: real)
    requires forall i :: 0 <= i < |s| ==> s[i] == a + b * i as real
    ensures forall i :: 0 <= i < |FirstDifference(s)| ==> FirstDifference(s)[i] == b
    ensures forall i :: 0 <= i < |DifferenceSeries(s, 2)| ==> DifferenceSeries(s, 2)[i] == 0.0
  {
    var d := FirstDifference(s);
    LineDifferences(s, d, a, b);
    assert DifferenceSeries(s, 2) == FirstDifference(d) by {
      DifferenceLastStep(s, 1);
    }
    ConstantDifferencesVanish(d);
  }
}

=== FILE: bollinger.dfy ===
/** Bollinger bands: the window mean plus and minus two population standard
    deviations of the same window. */
module Bollinger {
  import opened Options
  import opened Series

  /** `sqrt` behaves as `std::sqrt` on the non-negative reals: its result is
      the non-negative number whose square is the argument. */
  ghost predicate IsSquareRoot(sqrt: real -> real)
  {
    forall v :: 0.0 <= v ==> 0.0 <= sqrt(v) && sqrt(v) * sqrt(v) == v
  }

  /** The sum of the squared distances of the series from `m`, accumulated
      front to back as the source's loop does. */
  function SquaredDeviations(s: seq<real>, m: real): (r: real)
    ensures r >= 0.0
  {
    if s == [] then 0.0
    else
      SquareFacts(s[|s| - 1] - m);
      SquaredDeviations(s[..|s| - 1], m) + (s[|s| - 1] - m) * (s[|s| - 1] - m)
  }

  /** The population (not sample) variance of a non-empty window. */
  function PopulationVariance(s: seq<real>): (v: real)
    requires |s| > 0
    ensures v >= 0.0
  {
    SquaredDeviations(s, Mean(s)) / |s| as real
  }

  lemma {:induction false} FlatDeviationsVanish(s: seq<real>, m: real)
    requires forall i :: 0 <= i < |s| ==> s[i] == m
    ensures SquaredDeviations(s, m) == 0.0
    decreases |s|
  {
    if s != [] {
      FlatDeviationsVanish(s[..|s| - 1], m);
      var d := s[|s| - 1] - m;
      assert d == 0.0;
      assert d * d == 0.0;
    }
  }

  lemma {:induction false} DeviationsPositive(s: seq<real>, m: real, i: nat)
    requires i < |s| && s[i] != m
    ensures SquaredDeviations(s, m) > 0.0
    decreases |s|
  {
    var init, d := s[..|s| - 1], s[|s| - 1] - m;
    SquareFacts(d);
    assert SquaredDeviations(s, m) == SquaredDeviations(init, m) + d * d;
    if i < |s| - 1 {
      assert init[i] == s[i];
      DeviationsPositive(init, m, i);
    } else {
      calc {
        SquaredDeviations(s, m);
      ==
        SquaredDeviations(init, m) + d * d;
      >  { assert d * d > 0.0; }
        SquaredDeviations(init, m);
      >=
        0.0;
      }
    }
  }

  /** The variance is zero exactly when every price of the window is the
      same. */
  lemma VarianceZeroIffFlat(s: seq<real>)
    requires |s| > 0
    ensures PopulationVariance(s) == 0.0 <==> forall i :: 0 <= i < |s| ==> s[i] == s[0]
  {
    var m := Mean(s);
    if forall i :: 0 <= i < |s| ==> s[i] == s[0] {
      SumConstant(s, s[0]);
      assert m == s[0];
      FlatDeviationsVanish(s, m);
    } else {
      var i :| 0 <= i < |s| && s[i] != s[0];
      if s[i] != m {
        DeviationsPositive(s, m, i);
      } else {
        DeviationsPositive(s, m, 0);
      }
      assert PopulationVariance(s) > 0.0;
    }
  }

  /** The band pair (lower, upper) around `mean`: symmetric, four standard
      deviations wide, and ordered around the mean for a non-negative
      deviation. */
  function Bands(mean: real, sd: real): (b: (real, real))
    ensures b.1 - mean == mean - b.0
    ensures b.1 - b.0 == 4.0 * sd
    ensures sd >= 0.0 ==> b.0 <= mean <= b.1
  {
    (mean - 2.0 * sd, mean + 2.0 * sd)
  }

  /** On a flat window the standard deviation is zero and both bands sit on
      the mean. */
  lemma FlatWindowBandsCollapse(sqrt: real -> real, s: seq<real>, mean: real)
    requires IsSquareRoot(sqrt) && |s| > 0
    requires forall i :: 0 <= i < |s| ==> s[i] == s[0]
    ensures sqrt(PopulationVariance(s)) == 0.0
    ensures Bands(mean, sqrt(PopulationVariance(s))) == (mean, mean)
  {
    VarianceZeroIffFlat(s);
    var r := sqrt(0.0);
    assert r >= 0.0 && r * r == 0.0;
    if r > 0.0 {
      calc { 0.0; < r * r; == 0.0; }
    }
  }

  /** The typical price of a row, the mean of its fields 3, 4 and 5: it is
      neither above all three nor below all three. */
  function TypicalPrice(f3: real, f4: real, f5: real): (r: real)
    ensures r <= f3 || r <= f4 || r <= f5
    ensures r >= f3 || r >= f4 || r >= f5
  {
    (f3 + f4 + f5) / 3.0
  }

  class BollingerBands {
    var prices: seq<real>
    var averages: seq<real>
    var avg: real
    const period: int
    /** The deviations, bands; `None` stands for the quiet NaN. */
    var stdDevs: seq<Option<real>>
    var upperBand: seq<Option<real>>
    var lowerBand: seq<Option<real>>

    ghost predicate Valid()
      reads this
    {
      period >= 1 && |prices| == period
    }

    /** The state once the first `per` typical prices have been read and the
        first average computed; no band is computed yet. */
    constructor (per: int, firstPrices: seq<real>)
      requires per >= 1 && |firstPrices| == per
      ensures Valid() && period == per && prices == firstPrices
      ensures averages == [Mean(firstPrices)] && avg == Mean(firstPrices)
      ensures stdDevs == [] && upperBand == [] && lowerBand == []
    {
      period := per;
      prices := firstPrices;
      averages := [];
      stdDevs, upperBand, lowerBand := [], [], [];
      new;
      GetAverage();
    }

    method GetAverage()
      requires Valid()
      modifies this
      ensures Valid() && prices == old(prices)
      ensures avg == Mean(prices)
      ensures averages == old(averages) + [avg]
      ensures stdDevs == old(stdDevs) && upperBand == old(upperBand) && lowerBand == old(lowerBand)
    {
      var sum := Total(prices);
      avg := sum / period as real;
      averages := averages + [avg];
    }

    method UpdatePrices(newPrice: real)
      requires Valid()
      modifies this
      ensures Valid() && prices == Slide(old(prices), newPrice)
      ensures averages == old(averages) && avg == old(avg)
      ensures stdDevs == old(stdDevs) && upperBand == old(upperBand) && lowerBand == old(lowerBand)
    {
      prices := prices[1..];
      prices := prices + [newPrice];
    }

    /** NaN before any average exists; otherwise the population standard
        deviation of the window, which is also recorded. */
    method StandardDeviation(sqrt: real -> real) returns (sd: Option<real>)
      requires Valid() && IsSquareRoot(sqrt)
      modifies this
      ensures Valid() && prices == old(prices) && averages == old(averages) && avg == old(avg)
      ensures upperBand == old(upperBand) && lowerBand == old(lowerBand)
      ensures averages == [] ==> sd == None && stdDevs == old(stdDevs)
      ensures averages != [] ==>
                sd == Some(sqrt(PopulationVariance(prices))) && stdDevs == old(stdDevs) + [sd]
      ensures sd.Some? ==> sd.value >= 0.0 && sd.value * sd.value == PopulationVariance(prices)
    {
      if averages == [] {
        return None;
      }
      var sum := Total(prices);
      var mean := sum / |prices| as real;
      var squaredDifferencesSum := 0.0;
      for i := 0 to |prices|
        invariant unchanged(this)
        invariant squaredDifferencesSum == SquaredDeviations(prices[..i], mean)
      {
        assert prices[..i + 1][..i] == prices[..i];
        var difference := prices[i] - mean;
        squaredDifferencesSum := squaredDifferencesSum + difference * difference;
      }
      assert prices[..|prices|] == prices;
      var variance := squaredDifferencesSum / |prices| as real;
      sd := Some(sqrt(variance));
      stdDevs := stdDevs + [sd];
    }

    /** Appends one upper and one lower band around `avg` and records the
        deviation a second time (NaN bands before any average exists). */
    method GetBands(sqrt: real -> real)
      requires Valid() && IsSquareRoot(sqrt)
      modifies this
      ensures Valid() && prices == old(prices) && averages == old(averages) && avg == old(avg)
      ensures averages == [] ==>
                && stdDevs == old(stdDevs) + [None]
                && upperBand == old(upperBand) + [None]
                && lowerBand == old(lowerBand) + [None]
      ensures averages != [] ==>
                var sd := sqrt(PopulationVariance(prices));
                && stdDevs == old(stdDevs) + [Some(sd), Some(sd)]
                && upperBand == old(upperBand) + [Some(Bands(avg, sd).1)]
                && lowerBand == old(lowerBand) + [Some(Bands(avg, sd).0)]
                && Bands(avg, sd).0 <= avg <= Bands(avg, sd).1
    {
      var sd := StandardDeviation(sqrt);
      match sd {
        case None =>
          stdDevs := stdDevs + [None];
          upperBand := upperBand + [None];
          lowerBand := lowerBand + [None];
        case Some(d) =>
          var b1 := avg + 2.0 * d;
          var b2 := avg - 2.0 * d;
          stdDevs := stdDevs + [sd];
          upperBand := upperBand + [Some(b1)];
          lowerBand := lowerBand + [Some(b2)];
      }
    }

    /** One pass of the update loop: the new typical price enters the
        window, its mean is appended and the bands around it follow. */
    method Step(newPrice: real, sqrt: real -> real)
      requires Valid() && IsSquareRoot(sqrt)
      modifies this
      ensures Valid() && prices == Slide(old(prices), newPrice)
      ensures avg == Mean(prices) && averages == old(averages) + [avg]
      ensures var sd := sqrt(PopulationVariance(prices));
              && stdDevs == old(stdDevs) + [Some(sd), Some(sd)]
              && upperBand == old(upperBand) + [Some(Bands(avg, sd).1)]
              && lowerBand == old(lowerBand) + [Some(Bands(avg, sd).0)]
              && Bands(avg, sd).0 <= avg <= Bands(avg, sd).1
    {
      UpdatePrices(newPrice);
      GetAverage();
      GetBands(sqrt);
    }
  }
}

=== FILE: csv_reader.dfy ===
/** The CSV reader: a cursor over the lines of a file, each line split at
    every occurrence of the delimiter into the row's fields. */
module Csv {
  import opened Options

  /** The first position at or after `from` holding `c`, as the string
      library's `find` returns it; `None` stands for `npos`. */
  function FindFrom(s: string, c: char, from: nat): (r: Option<nat>)
    ensures r.Some? ==> from <= r.value < |s| && s[r.value] == c
    decreases |s| - from
  {
    if from >= |s| then None
    else if s[from] == c then Some(from)
    else FindFrom(s, c, from + 1)
  }

  /** The position found is the first one: no earlier position from `from`
      on holds `c`, and when none is found no position from `from` on does. */
  lemma {:induction false} FindFromIsFirst(s: string, c: char, from: nat)
    ensures FindFrom(s, c, from).Some? ==> forall j :: from <= j < FindFrom(s, c, from).value ==> s[j] != c
    ensures FindFrom(s, c, from).None? ==> forall j :: from <= j < |s| ==> s[j] != c
    decreases |s| - from
  {
    if from < |s| && s[from] != c {
      FindFromIsFirst(s, c, from + 1);
    }
  }

  /** The fields of a line: the pieces between consecutive delimiters, with
      the text after the last delimiter as the final field (empty when the
      line ends with one). */
  function Split(s: string, d: char): (fields: seq<string>)
    ensures |fields| >= 1
    decreases |s|
  {
    match FindFrom(s, d, 0)
    case None => [s]
    case Some(i) => [s[..i]] + Split(s[i + 1..], d)
  }

  /** The fields glued back together with the delimiter between them. */
  function Join(fields: seq<string>, d: char): (s: string)
    requires |fields| >= 1
    ensures |s| >= |fields| - 1
  {
    if |fields| == 1 then fields[0] else fields[0] + [d] + Join(fields[1..], d)
  }

  /** The number of occurrences of `c` in `s`. */
  function Count(s: string, c: char): nat
  {
    if |s| == 0 then 0 else (if s[0] == c then 1 else 0) + Count(s[1..], c)
  }

  lemma {:induction false} CountSplitAt(s: string, c: char, i: nat)
    requires i < |s| && s[i] == c && forall j :: 0 <= j < i ==> s[j] != c
    ensures Count(s, c) == 1 + Count(s[i + 1..], c)
  {
    if i > 0 {
      CountSplitAt(s[1..], c, i - 1);
      assert s[1..][i..] == s[i + 1..];
    }
  }

  lemma {:induction false} CountAbsent(s: string, c: char)
    requires forall j :: 0 <= j < |s| ==> s[j] != c
    ensures Count(s, c) == 0
  {
    if |s| > 0 {
      CountAbsent(s[1..], c);
    }
  }

  /** A line with `n` delimiters has `n + 1` fields. */
  lemma {:induction false} SplitLength(s: string, d: char)
    ensures |Split(s, d)| == Count(s, d) + 1
    decreases |s|
  {
    FindFromIsFirst(s, d, 0);
    match FindFrom(s, d, 0)
    case None =>
      CountAbsent(s, d);
    case Some(i) =>
      SplitLength(s[i + 1..], d);
      CountSplitAt(s, d, i);
  }

  /** No field contains the delimiter. */
  lemma {:induction false} SplitFieldsFree(s: string, d: char)
    ensures forall k :: 0 <= k < |Split(s, d)| ==> d !in Split(s, d)[k]
    decreases |s|
  {
    FindFromIsFirst(s, d, 0);
    match FindFrom(s, d, 0)
    case None =>
    case Some(i) =>
      SplitFieldsFree(s[i + 1..], d);
      var rest := Split(s[i + 1..], d);
      assert Split(s, d) == [s[..i]] + rest;
      forall k | 0 <= k < |Split(s, d)|
        ensures d !in Split(s, d)[k]
      {
        if k > 0 {
          assert Split(s, d)[k] == rest[k - 1];
        }
      }
  }

  /** Joining the fields with the delimiter gives back the line. */
  lemma {:induction false} JoinSplit(s: string, d: char)
    ensures Join(Split(s, d), d) == s
    decreases |s|
  {
    match FindFrom(s, d, 0)
    case None =>
    case Some(i) =>
      JoinSplit(s[i + 1..], d);
      var rest := Split(s[i + 1..], d);
      assert Split(s, d) == [s[..i]] + rest;
      assert ([s[..i]] + rest)[1..] == rest;
      assert s == s[..i] + [d] + s[i + 1..];
  }

  /** Fields free of the delimiter come back unchanged from a join and a
      split. */
  lemma {:induction false} SplitJoin(fields: seq<string>, d: char)
    requires |fields| >= 1
    requires forall k :: 0 <= k < |fields| ==> d !in fields[k]
    ensures Split(Join(fields, d), d) == fields
  {
    var s := Join(fields, d);
    if |fields| == 1 {
      assert FindFrom(s, d, 0).None? by {
        FindFromIsFirst(s, d, 0);
        forall j | 0 <= j < |s| ensures s[j] != d {
          assert s[j] in fields[0];
        }
      }
    } else {
      var f := fields[0];
      var tail := Join(fields[1..], d);
      assert s == f + [d] + tail;
      var i := |f|;
      assert s[i] == d;
      forall j | 0 <= j < i ensures s[j] != d {
        assert s[j] == f[j];
        assert f[j] in f;
      }
      FindFromIsFirst(s, d, 0);
      assert FindFrom(s, d, 0) == Some(i);
      assert s[..i] == f;
      assert s[i + 1..] == tail;
      SplitJoin(fields[1..], d);
    }
  }

  /** The sample line of a price file splits at each comma; consecutive
      delimiters give an empty field and a trailing one an empty last
      field. */
  lemma SplitExample()
    ensures Split("a,,b,", ',') == ["a", "", "b", ""]
  {
    var fields := ["a", "", "b", ""];
    assert Join(fields[3..], ',') == "";
    assert Join(fields[2..], ',') == "b,";
    assert Join(fields[1..], ',') == ",b,";
    assert Join(fields, ',') == "a,,b,";
    SplitJoin(fields, ',');
  }

  /** Searching from `from` finds what searching the suffix from its start
      finds, shifted by `from`. */
  lemma {:induction false} FindFromSuffix(s: string, c: char, from: nat)
    requires from <= |s|
    ensures FindFrom(s, c, from).None? <==> FindFrom(s[from..], c, 0).None?
    ensures FindFrom(s, c, from).Some? ==>
              FindFrom(s[from..], c, 0).value == FindFrom(s, c, from).value - from
  {
    FindFromIsFirst(s, c, from);
    FindFromIsFirst(s[from..], c, 0);
    forall j | from <= j < |s|
      ensures s[from..][j - from] == s[j]
    {
    }
  }

  /** Splitting the suffix of a line that starts at `pos`, when the search
      from `pos` finds a delimiter at `n`: the first field ends there and the
      rest is split after it. */
  lemma SplitAtFound(line: string, d: char, pos: nat, n: nat)
    requires pos <= |line| && FindFrom(line, d, pos) == Some(n)
    ensures Split(line[pos..], d) == [line[pos..n]] + Split(line[n + 1..], d)
  {
    FindFromSuffix(line, d, pos);
    var t, i := line[pos..], n - pos;
    assert FindFrom(t, d, 0) == Some(i);
    assert t[..i] == line[pos..n];
    assert t[i + 1..] == line[n + 1..];
  }

  /** When no delimiter follows `pos`, the suffix is a single field. */
  lemma SplitNoneFound(line: string, d: char, pos: nat)
    requires pos <= |line| && FindFrom(line, d, pos).None?
    ensures Split(line[pos..], d) == [line[pos..]]
  {
    FindFromSuffix(line, d, pos);
  }

  class CsvReader {
    /** The lines of the opened file, in order. */
    const lines: seq<string>
    /** The number of lines read so far. */
    var cursor: nat
    const delimiter: char

    ghost predicate Valid()
      reads this
    {
      cursor <= |lines|
    }

    /** Opens the reader on the first line with a comma delimiter. */
    constructor (content: seq<string>)
      ensures Valid() && lines == content && cursor == 0 && delimiter == ','
    {
      lines := content;
      cursor := 0;
      delimiter := ',';
    }

    /** Reads the next line and splits it into fields; at the end of the file
        reports failure with an empty row. */
    method ReadNext() returns (ok: bool, row: seq<string>)
      requires Valid()
      modifies this
      ensures Valid()
      ensures ok <==> old(cursor) < |lines|
      ensures ok ==> cursor == old(cursor) + 1 && row == Split(lines[old(cursor)], delimiter)
      ensures !ok ==> cursor == old(cursor) && row == []
    {
      row := [];
      if cursor == |lines| {
        return false, row;
      }
      var line := lines[cursor];
      cursor := cursor + 1;
      ghost var fields := Split(line, delimiter);
      var pos: nat := 0;
      assert line[pos..] == line;
      var nextPos := FindFrom(line, delimiter, pos);
      while nextPos.Some?
        invariant cursor == old(cursor) + 1 && pos <= |line|
        invariant nextPos == FindFrom(line, delimiter, pos)
        invariant row + Split(line[pos..], delimiter) == fields
        decreases |line| - pos
      {
        var n := nextPos.value;
        SplitAtFound(line, delimiter, pos, n);
        ghost var rest := Split(line[n + 1..], delimiter);
        assert (row + [line[pos..n]]) + rest == row + ([line[pos..n]] + rest);
        row := row + [line[pos..n]];
        pos := n + 1;
        nextPos := FindFrom(line, delimiter, pos);
      }
      SplitNoneFound(line, delimiter, pos);
      row := row + [line[pos..]];
      return true, row;
    }
  }
}

=== FILE: ema.dfy ===
/** The exponential moving average: a recursive smoother seeded by a
    simple average. */
module Ema {
  import opened Series

  /** The weight of the newest price, `2 / (period + 1)`. */
  function SmoothingConst(period: int): (k: real)
    requires period != -1
    ensures period >= 1 ==> 0.0 < k <= 1.0
    ensures period >= 1 ==> (k == 1.0 <==> period == 1)
  {
    2.0 / (period + 1) as real
  }

  /** One recursive step: the newest price weighted by `k`, the previous
      average by `1 - k`. For a weight in [0, 1] the new average lies between
      the previous one and the price, and its distance to the price shrinks
      by the factor `1 - k`. */
  function EmaStep(prev: real, price: real, k: real): (r: real)
    ensures r - price == (1.0 - k) * (prev - price)
    ensures 0.0 <= k <= 1.0 ==> Between(r, prev, price)
  {
    FractionOfGap(prev, price, k);
    assert price * k + prev * (1.0 - k) == prev + k * (price - prev);
    price * k + prev * (1.0 - k)
  }

  /** The average after `n` steps that all see the same `price`: it stays
      between the starting average and the price, and a price equal to the
      starting average is a fixed point. */
  function EmaRepeat(prev: real, price: real, k: real, n: nat): (r: real)
    ensures 0.0 <= k <= 1.0 ==> Between(r, prev, price)
    ensures prev == price ==> r == price
    decreases n
  {
    if n == 0 then prev else EmaStep(EmaRepeat(prev, price, k, n - 1), price, k)
  }

  /** The averages recorded by `n` steps that all see the same `price`:
      entry `i` is the average after `i + 1` steps. */
  function RepeatTrace(prev: real, price: real, k: real, n: nat): (t: seq<real>)
    ensures |t| == n
    decreases n
  {
    if n == 0 then [] else RepeatTrace(prev, price, k, n - 1) + [EmaRepeat(prev, price, k, n)]
  }

  /** Entry `i` of the trace is the average after `i + 1` steps, so for a
      weight in [0, 1] every recorded average lies between the start and
      the price. */
  lemma {:induction false} RepeatTraceEntries(prev: real, price: real, k: real, n: nat)
    ensures forall i :: 0 <= i < n ==> RepeatTrace(prev, price, k, n)[i] == EmaRepeat(prev, price, k, i + 1)
    ensures 0.0 <= k <= 1.0 ==> forall i :: 0 <= i < n ==> Between(RepeatTrace(prev, price, k, n)[i], prev, price)
    decreases n
  {
    if n > 0 {
      RepeatTraceEntries(prev, price, k, n - 1);
    }
  }

  /** The average after stepping through the prices `xs` in order. */
  function EmaFold(prev: real, xs: seq<real>, k: real): real
    decreases |xs|
  {
    if xs == [] then prev else EmaStep(EmaFold(prev, xs[..|xs| - 1], k), xs[|xs| - 1], k)
  }

  /** For a weight in [0, 1], an average that starts inside a price range
      and is fed prices from that range never leaves it. */
  lemma {:induction false} EmaFoldWithin(prev: real, xs: seq<real>, k: real, lo: real, hi: real)
    requires 0.0 <= k <= 1.0 && lo <= prev <= hi
    requires forall i :: 0 <= i < |xs| ==> lo <= xs[i] <= hi
    ensures lo <= EmaFold(prev, xs, k) <= hi
    decreases |xs|
  {
    if xs != [] {
      EmaFoldWithin(prev, xs[..|xs| - 1], k, lo, hi);
    }
  }

  class ExponentialMovingAverage {
    var prices: seq<real>
    var averages: seq<real>
    var avg: real
    const period: int
    const smoothingConst: real

    /** The previous average is always the last history entry. */
    ghost predicate Valid()
      reads this
    {
      && period >= 1 && |prices| == period
      && smoothingConst == SmoothingConst(period)
      && averages != [] && avg == averages[|averages| - 1]
    }

    /** The state once the first `per` prices have been read. The seed is
        `std::reduce(prices, 0)` divided by the window length: the library
        accumulates into an `int`, so its result `seedSum` is a parameter. */
    constructor (per: int, firstPrices: seq<real>, seedSum: int)
      requires per >= 1 && |firstPrices| == per
      ensures Valid() && period == per && prices == firstPrices
      ensures avg == seedSum as real / per as real && averages == [avg]
    {
      period := per;
      smoothingConst := SmoothingConst(per);
      prices := firstPrices;
      avg := seedSum as real / per as real;
      averages := [avg];
    }

    method UpdatePrices(newPrice: real)
      requires Valid()
      modifies this
      ensures Valid() && prices == Slide(old(prices), newPrice)
      ensures averages == old(averages) && avg == old(avg)
    {
      prices := prices[1..];
      prices := prices + [newPrice];
    }

    /** Moves the average toward the newest price and appends it. */
    method GetAverage() returns (r: real)
      requires Valid()
      modifies this
      ensures Valid() && prices == old(prices)
      ensures avg == EmaStep(old(avg), prices[period - 1], smoothingConst)
      ensures Between(avg, old(avg), prices[period - 1])
      ensures averages == old(averages) + [avg] && r == avg
    {
      avg := prices[|prices| - 1] * smoothingConst + avg * (1.0 - smoothingConst);
      averages := averages + [avg];
      r := avg;
    }
  }
}

=== FILE: kama.dfy ===
/** Kaufman's adaptive moving average: an exponential smoother whose weight
    follows the efficiency ratio (net move over path length) of the window. */
module Kama {
  import opened Series
  import Ema

  /** `2 / (2 + 1)`, the weight of the fastest EMA. */
  const FastConst: real := 2.0 / 3.0
  /** `2 / (30 + 1)`, the weight of the slowest EMA. */
  const SlowConst: real := 2.0 / 31.0

  /** The summed absolute steps `|p[i] - p[i-1]|` for `i` from `from` to the
      end of the window. */
  function AbsSteps(p: seq<real>, from: nat): (r: real)
    requires 1 <= from
    ensures r >= 0.0
    decreases |p| - from
  {
    if from >= |p| then 0.0 else Abs(p[from] - p[from - 1]) + AbsSteps(p, from + 1)
  }

  /** The path length the source's loop measures: its index runs from the
      last price down to 2, so the first step `p[1] - p[0]` is not counted. */
  function Volatility(p: seq<real>): (v: real)
    ensures v >= 0.0
  {
    AbsSteps(p, 2)
  }

  /** The signed net move of the window over its volatility. */
  function EfficiencyRatio(p: seq<real>): real
    requires |p| >= 2 && Volatility(p) != 0.0
  {
    (p[|p| - 1] - p[0]) / Volatility(p)
  }

  /** The net move from `p[from - 1]` to the last price is at most the path
      length from there (triangle inequality). */
  lemma {:induction false} NetMoveAtMostPath(p: seq<real>, from: nat)
    requires 1 <= from <= |p|
    ensures Abs(p[|p| - 1] - p[from - 1]) <= AbsSteps(p, from)
    decreases |p| - from
  {
    if from < |p| {
      NetMoveAtMostPath(p, from + 1);
      assert p[|p| - 1] - p[from - 1] == (p[|p| - 1] - p[from]) + (p[from] - p[from - 1]);
    }
  }

  /** A quotient whose numerator is bounded in size by its positive
      denominator lies in [-1, 1]. */
  lemma QuotientInUnit(c: real, v: real)
    requires v > 0.0 && -v <= c <= v
    ensures -1.0 <= c / v <= 1.0
  {
    var q := c / v;
    assert q * v == c;
    NonnegFactor(1.0 - q, v);
    NonnegFactor(1.0 + q, v);
  }

  /** When the skipped first step is flat, the ratio lies in [-1, 1]. */
  lemma RatioBoundedWhenFirstStepFlat(p: seq<real>)
    requires |p| >= 2 && Volatility(p) != 0.0 && p[1] == p[0]
    ensures -1.0 <= EfficiencyRatio(p) <= 1.0
  {
    NetMoveAtMostPath(p, 2);
    QuotientInUnit(p[|p| - 1] - p[0], Volatility(p));
  }

  /** Because the first step is skipped, the ratio is not bounded by 1:
      on 0, 1, 2 it is 2. */
  lemma RatioCanExceedOne()
    ensures Volatility([0.0, 1.0, 2.0]) == 1.0
    ensures EfficiencyRatio([0.0, 1.0, 2.0]) == 2.0
  {
    var p := [0.0, 1.0, 2.0];
    assert AbsSteps(p, 3) == 0.0;
    assert AbsSteps(p, 2) == 1.0;
  }

  /** The path length from `from` on is zero exactly when no price from
      there on differs from the one before it. */
  lemma {:induction false} NoPathIffFlatFrom(p: seq<real>, from: nat)
    requires 1 <= from
    ensures AbsSteps(p, from) == 0.0 <==> forall i :: from <= i < |p| ==> p[i] == p[i - 1]
    decreases |p| - from
  {
    if from < |p| {
      NoPathIffFlatFrom(p, from + 1);
    }
  }

  /** A window whose prices are all equal has no path length, so the ratio
      is undefined there (the source divides by zero). */
  lemma FlatWindowHasNoPath(p: seq<real>, from: nat)
    requires 1 <= from
    requires forall i :: 0 <= i < |p| ==> p[i] == p[0]
    ensures AbsSteps(p, from) == 0.0
  {
    NoPathIffFlatFrom(p, from);
  }

  /** The ratio is undefined on exactly the windows whose prices from index
      1 on are all equal: besides flat windows, every window of two prices
      and windows such as 1, 2, 2 whose only move is the skipped step. */
  lemma VolatilityZeroIff(p: seq<real>)
    ensures Volatility(p) == 0.0 <==> forall i :: 2 <= i < |p| ==> p[i] == p[i - 1]
    ensures |p| <= 2 ==> Volatility(p) == 0.0
  {
    NoPathIffFlatFrom(p, 2);
  }

  /** `(er * (fast - slow) + slow)^2`: never negative, the slow constant
      squared for a zero ratio, between the squared slow and fast constants
      for a ratio in [0, 1], and at most the squared fast constant (< 1) for
      a ratio in [-1, 1]. */
  function KamaSmoothing(er: real): (sc: real)
    ensures sc >= 0.0
    ensures er == 0.0 ==> sc == SlowConst * SlowConst
    ensures 0.0 <= er <= 1.0 ==> SlowConst * SlowConst <= sc <= FastConst * FastConst
    ensures -1.0 <= er <= 1.0 ==> sc <= FastConst * FastConst < 1.0
  {
    var b := er * (FastConst - SlowConst) + SlowConst;
    SmoothingBase(er, b);
    b * b
  }

  lemma SmoothingBase(er: real, b: real)
    requires b == er * (FastConst - SlowConst) + SlowConst
    ensures b * b >= 0.0
    ensures 0.0 <= er <= 1.0 ==> SlowConst * SlowConst <= b * b <= FastConst * FastConst
    ensures -1.0 <= er <= 1.0 ==> b * b <= FastConst * FastConst
  {
    var d := FastConst - SlowConst;
    assert d > 0.0;
    if 0.0 <= er <= 1.0 {
      assert 0.0 <= er * d <= d;
      assert SlowConst <= b <= FastConst;
      assert SlowConst * SlowConst <= b * SlowConst <= b * b;
      assert b * b <= b * FastConst <= FastConst * FastConst;
    }
    if -1.0 <= er <= 1.0 {
      assert -d <= er * d <= d;
      assert -FastConst <= b <= FastConst;
      assert FastConst * FastConst - b * b == (FastConst - b) * (FastConst + b);
      assert 0.0 <= (FastConst - b) * (FastConst + b);
    }
  }

  /** One adaptive step: the KAMA recursion is the EMA recursion with the
      adaptive constant in place of `2 / (period + 1)`. */
  function KamaStep(prev: real, price: real, sc: real): (r: real)
    ensures r == Ema.EmaStep(prev, price, sc)
  {
    prev + sc * (price - prev)
  }

  class KaufmanAdaptiveMovingAverage {
    var prices: seq<real>
    var averages: seq<real>
    var avg: real
    const period: int
    var smoothingConst: real
    var efficiencyRatio: real

    ghost predicate Valid()
      reads this
    {
      period >= 2 && |prices| == period
    }

    /** The state once the first `per` prices have been read: ratio and
        constant of that window, and the seed average; no average is
        appended yet. Reading the file is not modelled. */
    constructor (per: int, firstPrices: seq<real>)
      requires per >= 2 && |firstPrices| == per && Volatility(firstPrices) != 0.0
      ensures Valid() && period == per && prices == firstPrices
      ensures efficiencyRatio == EfficiencyRatio(firstPrices)
      ensures smoothingConst == KamaSmoothing(efficiencyRatio)
      ensures avg == Mean(firstPrices) && averages == []
    {
      period := per;
      prices := firstPrices;
      averages := [];
      new;
      GetEfficiencyRatio();
      GetSmoothingConst();
      var sum := Total(prices);
      avg := sum / period as real;
    }

    method GetEfficiencyRatio()
      requires Valid() && Volatility(prices) != 0.0
      modifies this
      ensures Valid() && prices == old(prices)
      ensures efficiencyRatio == EfficiencyRatio(prices)
      ensures averages == old(averages) && avg == old(avg) && smoothingConst == old(smoothingConst)
    {
      var change := prices[|prices| - 1] - prices[0];
      var volatility := 0.0;
      var i := |prices| - 1;
      while i != 1
        invariant unchanged(this) && 1 <= i <= |prices| - 1
        invariant volatility == AbsSteps(prices, i + 1)
        decreases i
      {
        volatility := volatility + Abs(prices[i] - prices[i - 1]);
        i := i - 1;
      }
      efficiencyRatio := change / volatility;
    }

    method GetSmoothingConst()
      requires Valid()
      modifies this
      ensures Valid() && smoothingConst == KamaSmoothing(efficiencyRatio)
      ensures prices == old(prices) && averages == old(averages) && avg == old(avg)
      ensures efficiencyRatio == old(efficiencyRatio)
    {
      var b := efficiencyRatio * (FastConst - SlowConst) + SlowConst;
      smoothingConst := b * b;
    }

    /** Moves the average toward the newest price by the smoothing constant
      and appends it: the distance to that price shrinks by `1 - sc`. */
    method GetAverage()
      requires Valid()
      modifies this
      ensures Valid() && prices == old(prices)
      ensures smoothingConst == old(smoothingConst) && efficiencyRatio == old(efficiencyRatio)
      ensures avg == KamaStep(old(avg), prices[period - 1], smoothingConst)
      ensures avg - prices[period - 1] == (1.0 - smoothingConst) * (old(avg) - prices[period - 1])
      ensures 0.0 <= smoothingConst <= 1.0 ==> Between(avg, old(avg), prices[period - 1])
      ensures averages == old(averages) + [avg]
    {
      avg := avg + smoothingConst * (prices[period - 1] - avg);
      averages := averages + [avg];
    }

    method UpdatePrices(newPrice: real)
      requires Valid()
      modifies this
      ensures Valid() && prices == Slide(old(prices), newPrice)
      ensures averages == old(averages) && avg == old(avg)
      ensures smoothingConst == old(smoothingConst) && efficiencyRatio == old(efficiencyRatio)
    {
      prices := prices[1..];
      prices := prices + [newPrice];
    }

    /** One pass of the update loop: the new price enters the window, the
        ratio and the constant are recomputed for it, and the average moves
        toward the price. */
    method Step(newPrice: real)
      requires Valid() && Volatility(Slide(prices, newPrice)) != 0.0
      modifies this
      ensures Valid() && prices == Slide(old(prices), newPrice)
      ensures efficiencyRatio == EfficiencyRatio(prices)
      ensures smoothingConst == KamaSmoothing(efficiencyRatio)
      ensures avg == KamaStep(old(avg), newPrice, smoothingConst)
      ensures averages == old(averages) + [avg]
    {
      UpdatePrices(newPrice);
      GetEfficiencyRatio();
      GetSmoothingConst();
      GetAverage();
    }
  }
}

=== FILE: macd.dfy ===
/** Moving average convergence/divergence: the gap between a 12-price and a
    26-price exponential average, its simple 9-value signal line, the
    histogram between them and buy/sell flags. */
module Macd {
  import opened Series
  import Ema

  /** The signal line of successive update steps: each library sum over the
      nine MACD values, divided by nine. */
  function SignalLine(sums: seq<int>): (line: seq<real>)
    ensures |line| == |sums|
  {
    if sums == [] then [] else SignalLine(sums[..|sums| - 1]) + [sums[|sums| - 1] as real / 9.0]
  }

  /** Signal `i` is the `i`-th window sum divided by nine. */
  lemma {:induction false} SignalLineEntries(sums: seq<int>)
    ensures forall i :: 0 <= i < |sums| ==> SignalLine(sums)[i] == sums[i] as real / 9.0
    decreases |sums|
  {
    if sums != [] {
      SignalLineEntries(sums[..|sums| - 1]);
    }
  }

  /** The MACD values of two equally long average histories: entry by
      entry, the short average minus the long one. */
  function MacdLine(short: seq<real>, long: seq<real>): (line: seq<real>)
    requires |short| == |long|
    ensures |line| == |short|
  {
    if short == [] then []
    else MacdLine(short[..|short| - 1], long[..|long| - 1]) + [short[|short| - 1] - long[|long| - 1]]
  }

  /** Entry `i` of the MACD values is the short average minus the long one
      of step `i`. */
  lemma {:induction false} MacdLineEntries(short: seq<real>, long: seq<real>)
    requires |short| == |long|
    ensures forall i :: 0 <= i < |short| ==> MacdLine(short, long)[i] == short[i] - long[i]
    decreases |short|
  {
    if short != [] {
      MacdLineEntries(short[..|short| - 1], long[..|long| - 1]);
    }
  }

  /** One more pair of averages appends one more MACD value. */
  lemma MacdLineSnoc(short: seq<real>, long: seq<real>, s: real, l: real)
    requires |short| == |long|
    ensures MacdLine(short + [s], long + [l]) == MacdLine(short, long) + [s - l]
  {
    assert (short + [s])[..|short|] == short;
    assert (long + [l])[..|long|] == long;
  }

  lemma {:induction false} SignalLineConcat(a: seq<int>, b: seq<int>)
    ensures SignalLine(a + b) == SignalLine(a) + SignalLine(b)
    decreases |b|
  {
    if b == [] {
      assert a + b == a;
    } else {
      assert (a + b)[..|a + b| - 1] == a + b[..|b| - 1];
      SignalLineConcat(a, b[..|b| - 1]);
    }
  }

  /** The first signal followed by the signals of the later steps. */
  lemma {:induction false} SignalLineCons(sums: seq<int>)
    requires |sums| > 0
    ensures SignalLine(sums) == [sums[0] as real / 9.0] + SignalLine(sums[1..])
  {
    var head, tail := [sums[0]], sums[1..];
    assert head[..0] == [];
    assert SignalLine(head) == [sums[0] as real / 9.0];
    SignalLineConcat(head, tail);
    assert head + tail == sums;
  }

  class MovingAverageConvergenceDivergence {
    const longEma: Ema.ExponentialMovingAverage
    const shortEma: Ema.ExponentialMovingAverage
    const shortPeriod: int := 12
    const longPeriod: int := 26
    const signalPeriod: int := 9

    var sellFlag: bool
    var buyFlag: bool
    var emaDiff: real
    var hist: real
    var signal: seq<real>
    /** The window of the last MACD values. */
    var macd: seq<real>
    var histogram: seq<real>
    /** The newest MACD value at each signal computation, so that the whole
        histogram history can be related to the MACD line. */
    ghost var macdAtSignal: seq<real>

    /** The two averages are distinct objects owned by this one, and every
        histogram entry is the MACD value minus the signal of its step. */
    ghost predicate Valid()
      reads this, longEma, shortEma
    {
      && longEma != shortEma
      && longEma.Valid() && shortEma.Valid()
      && longEma.period == longPeriod && shortEma.period == shortPeriod
      && |signal| == |histogram| == |macdAtSignal|
      && (forall i :: 0 <= i < |histogram| ==> histogram[i] == macdAtSignal[i] - signal[i])
    }

    /** Builds both averages from the first closing prices of `data` (26 for
        the long one, 12 for the short one). The two row cursors are left on
        the last row each average read, and the warm-up feeds those two rows
        nine times, recording each MACD value, then computes the first
        signal. The update loop then advances only the long cursor: each
        further price goes to the long average while the short average is
        fed its stale row again. `longSeedSum`, `shortSeedSum` and the
        entries of `signalSums` (one per signal) are the results of the
        library's integer-accumulating `std::reduce`. Opening and reading
        the file is not modelled. */
    constructor (data: seq<real>, longSeedSum: int, shortSeedSum: int, signalSums: seq<int>)
      requires |data| >= 26 && |signalSums| == |data| - 25
      ensures Valid() && fresh(longEma) && fresh(shortEma)
      ensures |macd| == signalPeriod && macd[signalPeriod - 1] == shortEma.avg - longEma.avg
      ensures signal == SignalLine(signalSums)
      ensures |longEma.averages| == |shortEma.averages| == |data| - 16
      ensures longEma.prices[longPeriod - 1] == data[|data| - 1]
      ensures shortEma.prices[shortPeriod - 1] == data[shortPeriod - 1]
    {
      longEma := new Ema.ExponentialMovingAverage(26, data[..26], longSeedSum);
      shortEma := new Ema.ExponentialMovingAverage(12, data[..12], shortSeedSum);
      macd, signal, histogram := [], [], [];
      macdAtSignal := [];
      new;
      WarmUp(data[25], data[11]);
      Start(data, signalSums);
    }

    /** The constructor's work after the warm-up: the first signal, then
        the update loop over the rows after the first 26. */
    method Start(data: seq<real>, signalSums: seq<int>)
      requires Valid() && signal == []
      requires |macd| == signalPeriod && macd[signalPeriod - 1] == shortEma.avg - longEma.avg
      requires |data| >= 26 && |signalSums| == |data| - 25
      requires longEma.prices[longPeriod - 1] == data[25] && shortEma.prices[shortPeriod - 1] == data[11]
      modifies this, longEma, shortEma
      ensures Valid()
      ensures |macd| == signalPeriod && macd[signalPeriod - 1] == shortEma.avg - longEma.avg
      ensures signal == SignalLine(signalSums)
      ensures |longEma.averages| == |old(longEma.averages)| + |data| - 26
      ensures |shortEma.averages| == |old(shortEma.averages)| + |data| - 26
      ensures longEma.prices[longPeriod - 1] == data[|data| - 1]
      ensures shortEma.prices[shortPeriod - 1] == data[shortPeriod - 1]
    {
      GetSignal(signalSums[0]);
      var rest := data[26..];
      UpdateLoop(rest, data[11], signalSums[1..]);
      assert rest != [] ==> rest[|rest| - 1] == data[|data| - 1];
      SignalLineCons(signalSums);
    }

    /** The read-until-end loop of the constructor: every further row goes to
        the long average, the short average gets its stale row again, and
        the MACD window, signal, histogram and flags follow each time. */
    method UpdateLoop(longPrices: seq<real>, shortPrice: real, sums: seq<int>)
      requires Valid() && |macd| == signalPeriod && |sums| == |longPrices|
      requires macd[signalPeriod - 1] == shortEma.avg - longEma.avg
      requires shortEma.prices[shortPeriod - 1] == shortPrice
      modifies this, longEma, shortEma
      ensures Valid() && |macd| == signalPeriod && macd[signalPeriod - 1] == shortEma.avg - longEma.avg
      ensures signal == old(signal) + SignalLine(sums)
      ensures |longEma.averages| == |old(longEma.averages)| + |longPrices|
      ensures |shortEma.averages| == |old(shortEma.averages)| + |longPrices|
      ensures longEma.avg == Ema.EmaFold(old(longEma.avg), longPrices, longEma.smoothingConst)
      ensures shortEma.avg == Ema.EmaRepeat(old(shortEma.avg), shortPrice, shortEma.smoothingConst, |longPrices|)
      ensures longEma.prices[longPeriod - 1] ==
                if longPrices == [] then old(longEma.prices[longPeriod - 1]) else longPrices[|longPrices| - 1]
      ensures shortEma.prices[shortPeriod - 1] == shortPrice
      ensures longPrices == [] ==>
                buyFlag == old(buyFlag) && sellFlag == old(sellFlag) && emaDiff == old(emaDiff) && hist == old(hist)
      ensures longPrices != [] ==> emaDiff == shortEma.avg - longEma.avg && hist == histogram[|histogram| - 1]
      ensures longPrices != [] && macd[signalPeriod - 1] > signal[|signal| - 1] ==> buyFlag && !sellFlag
      ensures longPrices != [] && macd[signalPeriod - 1] < signal[|signal| - 1] ==> sellFlag && !buyFlag
      ensures !(old(buyFlag) && old(sellFlag)) ==> !(buyFlag && sellFlag)
    {
      ghost var signal0 := signal;
      ghost var long0, short0 := longEma.avg, shortEma.avg;
      for j := 0 to |longPrices|
        invariant Valid() && |macd| == signalPeriod && macd[signalPeriod - 1] == shortEma.avg - longEma.avg
        invariant signal == signal0 + SignalLine(sums[..j])
        invariant |longEma.averages| == |old(longEma.averages)| + j
        invariant |shortEma.averages| == |old(shortEma.averages)| + j
        invariant longEma.avg == Ema.EmaFold(long0, longPrices[..j], longEma.smoothingConst)
        invariant shortEma.avg == Ema.EmaRepeat(short0, shortPrice, shortEma.smoothingConst, j)
        invariant longEma.prices[longPeriod - 1] ==
                    if j == 0 then old(longEma.prices[longPeriod - 1]) else longPrices[j - 1]
        invariant shortEma.prices[shortPeriod - 1] == shortPrice
        invariant j == 0 ==>
                    buyFlag == old(buyFlag) && sellFlag == old(sellFlag) && emaDiff == old(emaDiff) && hist == old(hist)
        invariant j > 0 ==> emaDiff == shortEma.avg - longEma.avg && hist == histogram[|histogram| - 1]
        invariant j > 0 && macd[signalPeriod - 1] > signal[|signal| - 1] ==> buyFlag && !sellFlag
        invariant j > 0 && macd[signalPeriod - 1] < signal[|signal| - 1] ==> sellFlag && !buyFlag
        invariant !(old(buyFlag) && old(sellFlag)) ==> !(buyFlag && sellFlag)
      {
        assert sums[..j + 1][..j] == sums[..j];
        assert longPrices[..j + 1][..j] == longPrices[..j];
        Step(longPrices[j], shortPrice, sums[j]);
      }
      assert sums[..|longPrices|] == sums;
      assert longPrices[..|longPrices|] == longPrices;
    }

    /** The state after `k` warm-up steps that started from the averages
        `long0` and `short0`, the histories `longHist` and `shortHist` and
        the windows `longWindow` and `shortWindow`: each window has lost its
        `k` oldest prices to `k` copies of its row's price, each history has
        gained the `k` repeated-price averages, and the MACD values are their
        differences. */
    ghost predicate WarmedUp(k: nat, longPrice: real, shortPrice: real, long0: real, short0: real,
                             longHist: seq<real>, shortHist: seq<real>,
                             longWindow: seq<real>, shortWindow: seq<real>)
      reads this, longEma, shortEma
    {
      && Valid() && k <= |shortWindow| && k <= |longWindow|
      && longEma.prices == longWindow[k..] + Copies(longPrice, k)
      && shortEma.prices == shortWindow[k..] + Copies(shortPrice, k)
      && longEma.averages == longHist + Ema.RepeatTrace(long0, longPrice, longEma.smoothingConst, k)
      && shortEma.averages == shortHist + Ema.RepeatTrace(short0, shortPrice, shortEma.smoothingConst, k)
      && longEma.avg == Ema.EmaRepeat(long0, longPrice, longEma.smoothingConst, k)
      && shortEma.avg == Ema.EmaRepeat(short0, shortPrice, shortEma.smoothingConst, k)
      && macd == MacdLine(Ema.RepeatTrace(short0, shortPrice, shortEma.smoothingConst, k),
                          Ema.RepeatTrace(long0, longPrice, longEma.smoothingConst, k))
      && (k > 0 ==> emaDiff == shortEma.avg - longEma.avg && macd[k - 1] == emaDiff)
    }

    /** The warm-up of the constructor: nine steps that feed each average the
        row its cursor stands on and record each MACD value. */
    method WarmUp(longPrice: real, shortPrice: real)
      requires Valid() && macd == []
      modifies this, longEma, shortEma
      ensures Valid()
      ensures longEma.averages ==
                old(longEma.averages) + Ema.RepeatTrace(old(longEma.avg), longPrice, longEma.smoothingConst, 9)
      ensures shortEma.averages ==
                old(shortEma.averages) + Ema.RepeatTrace(old(shortEma.avg), shortPrice, shortEma.smoothingConst, 9)
      ensures macd == MacdLine(Ema.RepeatTrace(old(shortEma.avg), shortPrice, shortEma.smoothingConst, 9),
                               Ema.RepeatTrace(old(longEma.avg), longPrice, longEma.smoothingConst, 9))
      ensures |macd| == signalPeriod && macd[signalPeriod - 1] == shortEma.avg - longEma.avg
      ensures emaDiff == macd[signalPeriod - 1]
      ensures signal == old(signal) && histogram == old(histogram) && macdAtSignal == old(macdAtSignal)
      ensures buyFlag == old(buyFlag) && sellFlag == old(sellFlag) && hist == old(hist)
      ensures longEma.prices == old(longEma.prices)[9..] + Copies(longPrice, 9)
      ensures shortEma.prices == old(shortEma.prices)[9..] + Copies(shortPrice, 9)
      ensures longEma.prices[longPeriod - 1] == longPrice && shortEma.prices[shortPeriod - 1] == shortPrice
      ensures longEma.avg == Ema.EmaRepeat(old(longEma.avg), longPrice, longEma.smoothingConst, 9)
      ensures shortEma.avg == Ema.EmaRepeat(old(shortEma.avg), shortPrice, shortEma.smoothingConst, 9)
    {
      ghost var long0, short0 := longEma.avg, shortEma.avg;
      ghost var longHist, shortHist := longEma.averages, shortEma.averages;
      ghost var longWindow, shortWindow := longEma.prices, shortEma.prices;
      assert longWindow[0..] + Copies(longPrice, 0) == longWindow;
      assert shortWindow[0..] + Copies(shortPrice, 0) == shortWindow;
      for k := 0 to 9
        invariant WarmedUp(k, longPrice, shortPrice, long0, short0, longHist, shortHist, longWindow, shortWindow)
        invariant signal == old(signal) && histogram == old(histogram) && macdAtSignal == old(macdAtSignal)
        invariant buyFlag == old(buyFlag) && sellFlag == old(sellFlag) && hist == old(hist)
      {
        WarmUpStep(longPrice, shortPrice, k, long0, short0, longHist, shortHist, longWindow, shortWindow);
      }
    }

    /** One pass of the warm-up loop: both windows slide by their rows'
        prices, both averages step toward them, and the gap between the
        averages is appended to the MACD values; in terms of the whole
        warm-up, `k` steps become `k + 1`. */
    method WarmUpStep(longPrice: real, shortPrice: real, ghost k: nat, ghost long0: real, ghost short0: real,
                      ghost longHist: seq<real>, ghost shortHist: seq<real>,
                      ghost longWindow: seq<real>, ghost shortWindow: seq<real>)
      requires WarmedUp(k, longPrice, shortPrice, long0, short0, longHist, shortHist, longWindow, shortWindow)
      requires k < |shortWindow| && k < |longWindow|
      modifies this, longEma, shortEma
      ensures WarmedUp(k + 1, longPrice, shortPrice, long0, short0, longHist, shortHist, longWindow, shortWindow)
      ensures longEma.prices == Slide(old(longEma.prices), longPrice)
      ensures shortEma.prices == Slide(old(shortEma.prices), shortPrice)
      ensures longEma.avg == Ema.EmaStep(old(longEma.avg), longPrice, longEma.smoothingConst)
      ensures shortEma.avg == Ema.EmaStep(old(shortEma.avg), shortPrice, shortEma.smoothingConst)
      ensures emaDiff == shortEma.avg - longEma.avg && macd == old(macd) + [emaDiff]
      ensures signal == old(signal) && histogram == old(histogram) && macdAtSignal == old(macdAtSignal)
      ensures buyFlag == old(buyFlag) && sellFlag == old(sellFlag) && hist == old(hist)
    {
      ghost var st := Ema.RepeatTrace(short0, shortPrice, shortEma.smoothingConst, k);
      ghost var lt := Ema.RepeatTrace(long0, longPrice, longEma.smoothingConst, k);
      StepAverages(longPrice, shortPrice);
      emaDiff := shortEma.averages[|shortEma.averages| - 1] - longEma.averages[|longEma.averages| - 1];
      macd := macd + [emaDiff];
      MacdLineSnoc(st, lt, shortEma.avg, longEma.avg);
      SlideCopies(longWindow, k, longPrice);
      SlideCopies(shortWindow, k, shortPrice);
    }

    /** Each average takes its price into the window and steps toward it;
        nothing of this object itself changes. */
    method StepAverages(longPrice: real, shortPrice: real)
      requires Valid()
      modifies longEma, shortEma
      ensures Valid()
      ensures longEma.prices == Slide(old(longEma.prices), longPrice)
      ensures shortEma.prices == Slide(old(shortEma.prices), shortPrice)
      ensures longEma.prices[longPeriod - 1] == longPrice && shortEma.prices[shortPeriod - 1] == shortPrice
      ensures longEma.avg == Ema.EmaStep(old(longEma.avg), longPrice, longEma.smoothingConst)
      ensures shortEma.avg == Ema.EmaStep(old(shortEma.avg), shortPrice, shortEma.smoothingConst)
      ensures longEma.averages == old(longEma.averages) + [longEma.avg]
      ensures shortEma.averages == old(shortEma.averages) + [shortEma.avg]
    {
      longEma.UpdatePrices(longPrice);
      var _ := longEma.GetAverage();
      shortEma.UpdatePrices(shortPrice);
      var _ := shortEma.GetAverage();
    }

    /** Drops the oldest MACD value and appends the current gap between the
        short and the long average. */
    method GetMacd()
      requires Valid() && macd != []
      modifies this
      ensures Valid() && emaDiff == shortEma.avg - longEma.avg
      ensures macd == Slide(old(macd), emaDiff)
      ensures signal == old(signal) && histogram == old(histogram) && hist == old(hist)
      ensures macdAtSignal == old(macdAtSignal)
      ensures buyFlag == old(buyFlag) && sellFlag == old(sellFlag)
    {
      macd := macd[1..];
      emaDiff := shortEma.averages[|shortEma.averages| - 1] - longEma.averages[|longEma.averages| - 1];
      macd := macd + [emaDiff];
    }

    /** With a full MACD window, appends the signal (the library's sum over
        the window, `macdSum`, divided by its length) and the histogram entry
        MACD minus signal; with any other window length changes nothing. */
    method GetSignal(macdSum: int)
      requires Valid()
      modifies this
      ensures Valid() && macd == old(macd)
      ensures buyFlag == old(buyFlag) && sellFlag == old(sellFlag) && emaDiff == old(emaDiff)
      ensures |macd| != signalPeriod ==>
                && signal == old(signal) && histogram == old(histogram) && hist == old(hist)
                && macdAtSignal == old(macdAtSignal)
      ensures |macd| == signalPeriod ==>
                && signal == old(signal) + [macdSum as real / 9.0]
                && hist == macd[signalPeriod - 1] - signal[|signal| - 1]
                && histogram == old(histogram) + [hist]
                && macdAtSignal == old(macdAtSignal) + [macd[signalPeriod - 1]]
    {
      if |macd| != signalPeriod {
        return;
      }
      var sig := macdSum as real / |macd| as real;
      signal := signal + [sig];
      hist := macd[|macd| - 1] - signal[|signal| - 1];
      histogram := histogram + [hist];
      macdAtSignal := macdAtSignal + [macd[|macd| - 1]];
    }

    /** MACD above its signal sets buy, below sets sell; a tie keeps both
        flags, so they are never both set once either has been triggered. */
    method SetFlag()
      requires macd != [] && signal != []
      modifies this
      ensures macd == old(macd) && signal == old(signal) && histogram == old(histogram)
      ensures macdAtSignal == old(macdAtSignal) && hist == old(hist) && emaDiff == old(emaDiff)
      ensures macd[|macd| - 1] > signal[|signal| - 1] ==> buyFlag && !sellFlag
      ensures macd[|macd| - 1] < signal[|signal| - 1] ==> sellFlag && !buyFlag
      ensures macd[|macd| - 1] == signal[|signal| - 1] ==>
                buyFlag == old(buyFlag) && sellFlag == old(sellFlag)
      ensures !(old(buyFlag) && old(sellFlag)) ==> !(buyFlag && sellFlag)
    {
      if macd[|macd| - 1] > signal[|signal| - 1] {
        sellFlag := false;
        buyFlag := true;
      } else if macd[|macd| - 1] < signal[|signal| - 1] {
        sellFlag := true;
        buyFlag := false;
      }
    }

    /** One step of the update loop: each average takes the price from its
        own cursor's row, then the MACD window, the signal and histogram, and
        the flags follow. */
    method Step(longPrice: real, shortPrice: real, macdSum: int)
      requires Valid() && |macd| == signalPeriod
      modifies this, longEma, shortEma
      ensures Valid() && |macd| == signalPeriod
      ensures longEma.prices == Slide(old(longEma.prices), longPrice)
      ensures shortEma.prices == Slide(old(shortEma.prices), shortPrice)
      ensures longEma.prices[longPeriod - 1] == longPrice && shortEma.prices[shortPeriod - 1] == shortPrice
      ensures longEma.avg == Ema.EmaStep(old(longEma.avg), longPrice, longEma.smoothingConst)
      ensures shortEma.avg == Ema.EmaStep(old(shortEma.avg), shortPrice, shortEma.smoothingConst)
      ensures longEma.averages == old(longEma.averages) + [longEma.avg]
      ensures shortEma.averages == old(shortEma.averages) + [shortEma.avg]
      ensures |longEma.averages| == |old(longEma.averages)| + 1
      ensures |shortEma.averages| == |old(shortEma.averages)| + 1
      ensures |signal| == |old(signal)| + 1
      ensures macd == Slide(old(macd), shortEma.avg - longEma.avg)
      ensures signal == old(signal) + [macdSum as real / 9.0]
      ensures histogram == old(histogram) + [macd[signalPeriod - 1] - signal[|signal| - 1]]
      ensures macdAtSignal == old(macdAtSignal) + [macd[signalPeriod - 1]]
      ensures macd[signalPeriod - 1] > signal[|signal| - 1] ==> buyFlag && !sellFlag
      ensures macd[signalPeriod - 1] < signal[|signal| - 1] ==> sellFlag && !buyFlag
      ensures macd[signalPeriod - 1] == signal[|signal| - 1] ==>
                buyFlag == old(buyFlag) && sellFlag == old(sellFlag)
      ensures !(old(buyFlag) && old(sellFlag)) ==> !(buyFlag && sellFlag)
      ensures emaDiff == shortEma.avg - longEma.avg && hist == histogram[|histogram| - 1]
    {
      StepAverages(longPrice, shortPrice);
      GetMacd();
      GetSignal(macdSum);
      SetFlag();
    }
  }
}

=== FILE: options.dfy ===
/** The optional value used where the source yields "no value": a quiet NaN,
    or `std::string::npos` from a search. */
module Options {

  datatype Option<+T> = None | Some(value: T)
}

=== FILE: rsi.dfy ===
/** The relative strength index over a 14-price window, with its
    overbought/oversold flags and support/resistance levels. */
module Rsi {
  import opened Series

  /** Every price the loop divides by is non-zero. */
  predicate NoZeroDivisor(p: seq<real>)
  {
    forall i :: 0 <= i < |p| - 1 ==> p[i] != 0.0
  }

  /** The percentage change from one price to the next. */
  function PercentChange(from: real, to: real): real
    requires from != 0.0
  {
    (to / from - 1.0) * 100.0
  }

  /** The percentage changes of the adjacent pairs of a window. */
  function Changes(p: seq<real>): (c: seq<real>)
    requires NoZeroDivisor(p)
  {
    if |p| == 0 then []
    else seq(|p| - 1, i requires 0 <= i < |p| - 1 => PercentChange(p[i], p[i + 1]))
  }

  /** The positive changes, in order. */
  function Wins(c: seq<real>): (w: seq<real>)
    ensures |w| <= |c|
    ensures forall i :: 0 <= i < |w| ==> w[i] > 0.0
  {
    if c == [] then []
    else Wins(c[..|c| - 1]) + (if c[|c| - 1] > 0.0 then [c[|c| - 1]] else [])
  }

  /** The magnitudes of the negative changes, in order. */
  function Losses(c: seq<real>): (l: seq<real>)
    ensures |l| <= |c|
    ensures forall i :: 0 <= i < |l| ==> l[i] > 0.0
  {
    if c == [] then []
    else Losses(c[..|c| - 1]) + (if c[|c| - 1] < 0.0 then [Abs(c[|c| - 1])] else [])
  }

  /** The gains are exactly the positive changes: every positive change is
      kept and nothing else is. */
  lemma {:induction false} WinsArePositiveChanges(c: seq<real>)
    ensures forall x :: x in Wins(c) <==> x in c && x > 0.0
    decreases |c|
  {
    if c != [] {
      WinsArePositiveChanges(c[..|c| - 1]);
      assert c == c[..|c| - 1] + [c[|c| - 1]];
    }
  }

  /** The losses are exactly the magnitudes of the negative changes. */
  lemma {:induction false} LossesAreNegativeMagnitudes(c: seq<real>)
    ensures forall x :: x in Losses(c) <==> x > 0.0 && -x in c
    decreases |c|
  {
    if c != [] {
      LossesAreNegativeMagnitudes(c[..|c| - 1]);
      assert c == c[..|c| - 1] + [c[|c| - 1]];
    }
  }

  lemma ChangeAt(p: seq<real>, i: nat)
    requires NoZeroDivisor(p) && i < |p| - 1
    ensures Changes(p)[i] == (p[i + 1] / p[i] - 1.0) * 100.0
  {
  }

  /** Classifying one more change extends exactly one list, or neither for
      a zero change. */
  lemma ClassifyStep(c: seq<real>, i: nat)
    requires i < |c|
    ensures Wins(c[..i + 1]) == Wins(c[..i]) + (if c[i] > 0.0 then [c[i]] else [])
    ensures Losses(c[..i + 1]) == Losses(c[..i]) + (if c[i] < 0.0 then [Abs(c[i])] else [])
  {
    assert c[..i + 1][..i] == c[..i];
  }

  /** Gains minus losses is the net change: no change is dropped or counted
      twice (a zero change contributes nothing either way). */
  lemma {:induction false} WinsMinusLossesIsNet(c: seq<real>)
    ensures Sum(Wins(c)) - Sum(Losses(c)) == Sum(c)
    decreases |c|
  {
    if c != [] {
      var init, x := c[..|c| - 1], c[|c| - 1];
      WinsMinusLossesIsNet(init);
      var w := if x > 0.0 then [x] else [];
      var l := if x < 0.0 then [Abs(x)] else [];
      SumConcat(Wins(init), w);
      SumConcat(Losses(init), l);
      assert Sum(w) - Sum(l) == x by {
        assert Sum([x]) == x by { assert [x][..0] == []; }
        assert Sum([Abs(x)]) == Abs(x) by { assert [Abs(x)][..0] == []; }
      }
    }
  }

  /** Every non-zero change lands in exactly one of the two lists. */
  lemma {:induction false} NonZeroChangesAllClassified(c: seq<real>)
    requires forall i :: 0 <= i < |c| ==> c[i] != 0.0
    ensures |Wins(c)| + |Losses(c)| == |c|
    decreases |c|
  {
    if c != [] {
      NonZeroChangesAllClassified(c[..|c| - 1]);
    }
  }

  /** On a non-decreasing window of positive prices there are no losses (a
      flat step is a zero change, which goes to neither list), so the
      source's average loss is never set. */
  lemma RisingWindowHasNoLosses(p: seq<real>)
    requires forall i :: 0 <= i < |p| ==> p[i] > 0.0
    requires forall i :: 0 <= i < |p| - 1 ==> p[i] <= p[i + 1]
    ensures NoZeroDivisor(p) && Losses(Changes(p)) == []
  {
    var c := Changes(p);
    forall i | 0 <= i < |c| ensures c[i] >= 0.0 {
      var a, b := p[i], p[i + 1];
      var q := b / a;
      assert q * a == b;
      assert (q - 1.0) * a == b - a;
      NonnegFactor(q - 1.0, a);
    }
    NoLossesWithoutFalls(c);
  }

  lemma {:induction false} NoLossesWithoutFalls(c: seq<real>)
    requires forall i :: 0 <= i < |c| ==> c[i] >= 0.0
    ensures Losses(c) == []
    decreases |c|
  {
    if c != [] {
      NoLossesWithoutFalls(c[..|c| - 1]);
    }
  }

  /** The average gain of a window that has gains. */
  function AverageWin(p: seq<real>): (a: real)
    requires NoZeroDivisor(p) && Wins(Changes(p)) != []
    ensures a > 0.0
  {
    MeanOfPositives(Wins(Changes(p)));
    Mean(Wins(Changes(p)))
  }

  /** The average loss magnitude of a window that has losses. */
  function AverageLoss(p: seq<real>): (a: real)
    requires NoZeroDivisor(p) && Losses(Changes(p)) != []
    ensures a > 0.0
  {
    MeanOfPositives(Losses(Changes(p)));
    Mean(Losses(Changes(p)))
  }

  /** `100 - 100 / (1 + win / loss)`, or 100 when the average loss is zero.
      Both averages are of magnitudes, so never negative. With a positive
      average loss the index is the share of the gains in the total
      movement, which is strictly between 0 and 100 when both are
      positive. */
  function RsiValue(avgWin: real, avgLoss: real): (r: real)
    requires avgWin >= 0.0 && avgLoss >= 0.0
    ensures avgLoss == 0.0 ==> r == 100.0
    ensures avgLoss > 0.0 ==> r == 100.0 * avgWin / (avgWin + avgLoss)
    ensures avgWin > 0.0 && avgLoss > 0.0 ==> 0.0 < r < 100.0
  {
    if avgLoss == 0.0 then 100.0
    else
      var rs := avgWin / avgLoss;
      assert rs * avgLoss == avgWin;
      NonnegFactor(rs, avgLoss);
      assert (1.0 + rs) * avgLoss == avgLoss + avgWin;
      100.0 - 100.0 / (1.0 + rs)
  }

  class RelativeStrengthIndex {
    const period: int := 14
    var supportPrice: real
    var resistancePrice: real
    var prices: seq<real>
    var rsi: seq<real>
    var overBought: bool
    var overSold: bool

    ghost predicate Valid()
      reads this
    {
      |prices| == period
    }

    /** The state once the first 14 prices have been read and the first index
        computed; the flags and the two levels are left uninitialised, as in
        the source. */
    constructor (firstPrices: seq<real>)
      requires |firstPrices| == 14 && NoZeroDivisor(firstPrices)
      requires Wins(Changes(firstPrices)) != [] && Losses(Changes(firstPrices)) != []
      ensures Valid() && prices == firstPrices
      ensures rsi == [RsiValue(AverageWin(firstPrices), AverageLoss(firstPrices))]
      ensures 0.0 < rsi[0] < 100.0
    {
      prices := firstPrices;
      rsi := [];
      new;
      GetRelativeStrength();
    }

    method UpdatePrices(newPrice: real)
      requires Valid()
      modifies this
      ensures Valid() && prices == Slide(old(prices), newPrice) && rsi == old(rsi)
      ensures overBought == old(overBought) && overSold == old(overSold)
      ensures supportPrice == old(supportPrice) && resistancePrice == old(resistancePrice)
    {
      prices := prices[1..];
      prices := prices + [newPrice];
    }

    /** Splits the window's percentage changes into gains and losses,
        averages each and appends the index. An empty list leaves its average
        uninitialised in the source, so both must be non-empty here. */
    method GetRelativeStrength()
      requires Valid() && NoZeroDivisor(prices)
      requires Wins(Changes(prices)) != [] && Losses(Changes(prices)) != []
      modifies this
      ensures Valid() && prices == old(prices)
      ensures rsi == old(rsi) + [RsiValue(AverageWin(prices), AverageLoss(prices))]
      ensures 0.0 < rsi[|rsi| - 1] < 100.0
      ensures overBought == old(overBought) && overSold == old(overSold)
      ensures supportPrice == old(supportPrice) && resistancePrice == old(resistancePrice)
    {
      ghost var c := Changes(prices);
      var wins, losses := [], [];
      for i := 0 to |prices| - 1
        invariant unchanged(this) && c == Changes(prices)
        invariant wins == Wins(c[..i]) && losses == Losses(c[..i])
      {
        ClassifyStep(c, i);
        ChangeAt(prices, i);
        var ratio := prices[i + 1] / prices[i];
        ratio := ratio - 1.0;
        ratio := ratio * 100.0;
        if ratio < 0.0 {
          losses := losses + [Abs(ratio)];
        } else if ratio > 0.0 {
          wins := wins + [ratio];
        }
      }
      assert c[..|prices| - 1] == c;
      assert wins == Wins(c) && losses == Losses(c);
      var avgWin := Sum(wins) / |wins| as real;
      var avgLoss := Sum(losses) / |losses| as real;
      assert avgWin == AverageWin(prices) && avgLoss == AverageLoss(prices);
      rsi := rsi + [RsiValue(avgWin, avgLoss)];
    }

    /** RSI of at least 70 flags overbought, at most 30 oversold; in between
        the flags keep their values, so they are never both set once either
        threshold has been crossed. */
    method SetFlags()
      requires rsi != []
      modifies this
      ensures prices == old(prices) && rsi == old(rsi)
      ensures supportPrice == old(supportPrice) && resistancePrice == old(resistancePrice)
      ensures rsi[|rsi| - 1] >= 70.0 ==> overBought && !overSold
      ensures rsi[|rsi| - 1] <= 30.0 ==> !overBought && overSold
      ensures 30.0 < rsi[|rsi| - 1] < 70.0 ==> overBought == old(overBought) && overSold == old(overSold)
      ensures !(old(overBought) && old(overSold)) ==> !(overBought && overSold)
    {
      if rsi[|rsi| - 1] >= 70.0 {
        overBought := true;
        overSold := false;
      } else if rsi[|rsi| - 1] <= 30.0 {
        overBought := false;
        overSold := true;
      }
    }

    /** An index in (50, 60) makes the newest price the resistance level,
        one in (40, 50) the support level; otherwise neither changes. */
    method SupportOrResistance()
      requires rsi != [] && prices != []
      modifies this
      ensures prices == old(prices) && rsi == old(rsi)
      ensures overBought == old(overBought) && overSold == old(overSold)
      ensures resistancePrice == (if 50.0 < rsi[|rsi| - 1] < 60.0 then prices[|prices| - 1] else old(resistancePrice))
      ensures supportPrice == (if 40.0 < rsi[|rsi| - 1] < 50.0 then prices[|prices| - 1] else old(supportPrice))
    {
      if rsi[|rsi| - 1] > 50.0 && rsi[|rsi| - 1] < 60.0 {
        resistancePrice := prices[|prices| - 1];
      } else if rsi[|rsi| - 1] > 40.0 && rsi[|rsi| - 1] < 50.0 {
        supportPrice := prices[|prices| - 1];
      }
    }

    /** One pass of the update loop: the new price enters the window and the
        index of the new window is appended. */
    method Step(newPrice: real)
      requires Valid()
      requires var p := Slide(prices, newPrice);
               NoZeroDivisor(p) && Wins(Changes(p)) != [] && Losses(Changes(p)) != []
      modifies this
      ensures Valid() && prices == Slide(old(prices), newPrice)
      ensures rsi == old(rsi) + [RsiValue(AverageWin(prices), AverageLoss(prices))]
      ensures 0.0 < rsi[|rsi| - 1] < 100.0
      ensures overBought == old(overBought) && overSold == old(overSold)
      ensures supportPrice == old(supportPrice) && resistancePrice == old(resistancePrice)
    {
      UpdatePrices(newPrice);
      GetRelativeStrength();
    }
  }

  /** The mean of a non-empty list of positive numbers is positive. */
  lemma MeanOfPositives(s: seq<real>)
    requires |s| > 0 && forall i :: 0 <= i < |s| ==> s[i] > 0.0
    ensures Mean(s) > 0.0
  {
    SumOfPositives(s);
  }

  lemma {:induction false} SumOfPositives(s: seq<real>)
    requires |s| > 0 && forall i :: 0 <= i < |s| ==> s[i] > 0.0
    ensures Sum(s) > 0.0
    decreases |s|
  {
    if |s| > 1 {
      SumOfPositives(s[..|s| - 1]);
    }
  }
}

=== FILE: series.dfy ===
/** Sums, means and sliding windows over price series, shared by the indicators. */
module Series {

  /** The sum of a series, accumulated front to back as the summing loops do. */
  function Sum(s: seq<real>): real
  {
    if s == [] then 0.0 else Sum(s[..|s| - 1]) + s[|s| - 1]
  }

  /** The arithmetic mean of a non-empty series. */
  function Mean(s: seq<real>): real
    requires |s| > 0
  {
    Sum(s) / |s| as real
  }

  function Abs(x: real): (r: real)
    ensures r >= 0.0 && (r == x || r == -x)
  {
    if x < 0.0 then -x else x
  }

  /** `r` lies on the closed segment between `a` and `b`. */
  predicate Between(r: real, a: real, b: real)
  {
    (a <= r <= b) || (b <= r <= a)
  }

  /** Moving from `a` toward `b` by a fraction `t` in [0, 1] of the gap
      stays on the segment between them. */
  lemma FractionOfGap(a: real, b: real, t: real)
    ensures 0.0 <= t <= 1.0 ==> Between(a + t * (b - a), a, b)
  {
    var d, u := b - a, 1.0 - t;
    if 0.0 <= t && 0.0 <= u {
      if d >= 0.0 {
        assert 0.0 <= t * d && 0.0 <= u * d;
        assert d - t * d == u * d;
      } else {
        assert 0.0 <= t * -d && 0.0 <= u * -d;
        assert t * d - d == u * -d;
      }
    }
  }

  lemma NonnegFactor(a: real, v: real)
    requires v > 0.0 && a * v >= 0.0
    ensures a >= 0.0
  {
  }

  lemma SquareFacts(d: real)
    ensures d * d >= 0.0
    ensures d != 0.0 ==> d * d > 0.0
  {
    if d < 0.0 {
      var e := -d;
      assert e * e > 0.0;
      assert d * d == e * e;
    } else if d > 0.0 {
      assert d * d > 0.0;
    }
  }

  /** The window after one `update_prices`: the oldest price leaves at the
      front and the new price enters at the back. */
  function Slide(window: seq<real>, x: real): (w: seq<real>)
    requires |window| > 0
    ensures |w| == |window| && w[|w| - 1] == x
    ensures forall i :: 0 <= i < |w| - 1 ==> w[i] == window[i + 1]
  {
    window[1..] + [x]
  }

  /** `n` copies of the price `x`. */
  function Copies(x: real, n: nat): (s: seq<real>)
    ensures |s| == n && (n > 0 ==> s[n - 1] == x)
  {
    if n == 0 then [] else Copies(x, n - 1) + [x]
  }

  /** Sliding a price into a window that already ends in `k` copies of it
      leaves the suffix from `k + 1` followed by `k + 1` copies. */
  lemma SlideCopies(w: seq<real>, k: nat, x: real)
    requires k < |w|
    ensures Slide(w[k..] + Copies(x, k), x) == w[k + 1..] + Copies(x, k + 1)
  {
    assert (w[k..] + Copies(x, k))[1..] == w[k + 1..] + Copies(x, k);
  }

  /** Summing loop over a window (`for i ... sum += prices.at(i)`). */
  method Total(s: seq<real>) returns (sum: real)
    ensures sum == Sum(s)
  {
    sum := 0.0;
    for i := 0 to |s|
      invariant sum == Sum(s[..i])
    {
      assert s[..i + 1][..i] == s[..i];
      sum := sum + s[i];
    }
    assert s[..|s|] == s;
  }

  lemma {:induction false} SumCons(x: real, s: seq<real>)
    ensures Sum([x] + s) == x + Sum(s)
    decreases |s|
  {
    if s != [] {
      var t := [x] + s;
      assert t[..|t| - 1] == [x] + s[..|s| - 1];
      SumCons(x, s[..|s| - 1]);
    }
  }

  lemma {:induction false} SumConcat(a: seq<real>, b: seq<real>)
    ensures Sum(a + b) == Sum(a) + Sum(b)
    decreases |b|
  {
    if b == [] {
      assert a + b == a;
    } else {
      var t := a + b;
      assert t[..|t| - 1] == a + b[..|b| - 1];
      SumConcat(a, b[..|b| - 1]);
    }
  }

  /** Sliding the window changes its sum by the entering price minus the
      leaving one: the running-sum form of the moving average. */
  lemma SumSlide(window: seq<real>, x: real)
    requires |window| > 0
    ensures Sum(Slide(window, x)) == Sum(window) - window[0] + x
  {
    assert window == [window[0]] + window[1..];
    SumCons(window[0], window[1..]);
    assert Sum(Slide(window, x)) == Sum(window[1..]) + x by {
      var w := Slide(window, x);
      assert w[..|w| - 1] == window[1..];
    }
  }

  /** The mean of the slid window is the old mean corrected by the change
      divided by the window length. */
  lemma MeanSlide(window: seq<real>, x: real)
    requires |window| > 0
    ensures Mean(Slide(window, x)) == Mean(window) + (x - window[0]) / |window| as real
  {
    SumSlide(window, x);
    var n := |window| as real;
    assert (Sum(window) - window[0] + x) / n == Sum(window) / n + (x - window[0]) / n;
  }

  /** A series of `n` copies of `c` sums to `n * c`. */
  lemma {:induction false} SumConstant(s: seq<real>, c: real)
    requires forall i :: 0 <= i < |s| ==> s[i] == c
    ensures Sum(s) == |s| as real * c
    decreases |s|
  {
    if s != [] {
      SumConstant(s[..|s| - 1], c);
    }
  }
}

=== FILE: sma.dfy ===
/** The simple moving average of closing prices over a fixed period. */
module Sma {
  import opened Series

  class SimpleMovingAverage {
    /** The window of the last `period` prices (a deque in the source). */
    var prices: seq<real>
    /** The append-only history of computed averages. */
    var averages: seq<real>
    var avg: real
    const period: int

    ghost predicate Valid()
      reads this
    {
      period >= 1 && |prices| == period
    }

    /** The state once the first `per` prices have been read and the first
        average computed; reading them from the file is not modelled. */
    constructor (per: int, firstPrices: seq<real>)
      requires per >= 1 && |firstPrices| == per
      ensures Valid() && period == per && prices == firstPrices
      ensures averages == [Mean(firstPrices)] && avg == Mean(firstPrices)
    {
      period := per;
      prices := firstPrices;
      averages := [];
      new;
      GetAverage();
    }

    /** Sums the window, divides by `period` and appends the result. */
    method GetAverage()
      requires Valid()
      modifies this
      ensures Valid() && prices == old(prices)
      ensures avg == Mean(prices)
      ensures averages == old(averages) + [avg]
    {
      var sum := Total(prices);
      avg := sum / period as real;
      averages := averages + [avg];
    }

    method UpdatePrices(newPrice: real)
      requires Valid()
      modifies this
      ensures Valid() && prices == Slide(old(prices), newPrice)
      ensures averages == old(averages) && avg == old(avg)
    {
      prices := prices[1..];
      prices := prices + [newPrice];
    }

    /** The update loop of the source's constructor, with the rows read from
        the file given as the sequence `xs` of closing prices: the average
        appended at step `k` is the mean of the `period` most recent prices. */
    method Feed(xs: seq<real>)
      requires Valid()
      modifies this
      ensures Valid() && prices == (old(prices) + xs)[|xs|..]
      ensures |averages| == |old(averages)| + |xs|
      ensures averages[..|old(averages)|] == old(averages)
      ensures forall j :: |old(averages)| <= j < |averages| ==>
                averages[j] == Mean((old(prices) + xs)[j - |old(averages)| + 1..j - |old(averages)| + 1 + period])
      ensures avg == if xs == [] then old(avg) else averages[|averages| - 1]
    {
      ghost var stream := prices + xs;
      ghost var n := |averages|;
      for i := 0 to |xs|
        invariant Valid()
        invariant prices == stream[i..i + period]
        invariant |averages| == n + i
        invariant averages[..n] == old(averages)
        invariant forall j :: n <= j < |averages| ==>
                    averages[j] == Mean(stream[j - n + 1..j - n + 1 + period])
        invariant i == 0 ==> avg == old(avg)
        invariant i > 0 ==> avg == averages[|averages| - 1]
      {
        assert stream[i + period] == xs[i];
        assert Slide(prices, xs[i]) == stream[i + 1..i + 1 + period];
        ghost var prev := averages;
        Step(xs[i]);
        assert averages == prev + [Mean(stream[i + 1..i + 1 + period])];
      }
    }

    /** One pass of the update loop: the new price enters the window and the
        mean of the new window becomes the average and is appended. */
    method Step(newPrice: real)
      requires Valid()
      modifies this
      ensures Valid() && prices == Slide(old(prices), newPrice)
      ensures avg == Mean(prices) && averages == old(averages) + [avg]
    {
      UpdatePrices(newPrice);
      GetAverage();
    }
  }
}

=== FILE: stocks_lstm.dfy ===
/** Training pairs for the price-forecasting network: each window of
    `sequenceLength` consecutive values paired with the value that follows
    it. */
module StocksLstm {
  /** `X[i]` is the window starting at `i` and `y[i]` the value after it. */
  ghost predicate AreSequences(data: seq<real>, sequenceLength: nat, X: seq<seq<real>>, y: seq<real>)
  {
    && |X| == |y| == (if |data| <= sequenceLength then 0 else |data| - sequenceLength)
    && (forall i :: 0 <= i < |X| ==> X[i] == data[i..i + sequenceLength])
    && (forall i :: 0 <= i < |y| ==> y[i] == data[i + sequenceLength])
  }

  method CreateSequences(data: seq<real>, sequenceLength: int) returns (X: seq<seq<real>>, y: seq<real>)
    requires sequenceLength >= 0
    ensures AreSequences(data, sequenceLength, X, y)
  {
    X, y := [], [];
    var count := if |data| <= sequenceLength then 0 else |data| - sequenceLength;
    for i := 0 to count
      invariant |X| == |y| == i
      invariant forall j :: 0 <= j < i ==> X[j] == data[j..j + sequenceLength]
      invariant forall j :: 0 <= j < i ==> y[j] == data[j + sequenceLength]
    {
      var inputSequence := data[i..i + sequenceLength];
      X := X + [inputSequence];
      var output := data[i + sequenceLength];
      y := y + [output];
    }
  }

  /** Consecutive windows overlap: the next window is this one shifted by
      one place with this pair's target appended. */
  lemma WindowsOverlap(data: seq<real>, sequenceLength: nat, X: seq<seq<real>>, y: seq<real>, i: nat)
    requires AreSequences(data, sequenceLength, X, y)
    requires sequenceLength >= 1 && i + 1 < |X|
    ensures X[i + 1] == X[i][1..] + [y[i]]
  {
    assert X[i][1..] + [y[i]] == data[i + 1..i + 1 + sequenceLength];
  }

  /** Every value after the first window is the target of exactly the pair
      whose window ends just before it. */
  lemma TargetsAreTheTail(data: seq<real>, sequenceLength: nat, X: seq<seq<real>>, y: seq<real>)
    requires AreSequences(data, sequenceLength, X, y)
    requires sequenceLength < |data|
    ensures y == data[sequenceLength..]
  {
  }
}
